=== FILE: README.md ===
# Budget tracker core, modelled in Dafny

This project models the core of a terminal budget tracker (`budget_app/`). The tracker keeps one JSON file of monthly records. Each record has a month key `"MM/YY"`, a salary and an expenses amount. Beside the records the file holds a bank balance.

The user types lines at nested menus:
- main menu
- add-data menu
- view-data menu
- duplicate-month dialog

The lines are either menu numbers or commands:
- `+1500 3/25` adds income;
- `-200 03.25` adds an expense;
- `bank 1,000` sets the balance;
- `graph`, `view`, `add`, `exit`, `menu`.

The modules follow the program's files:

| module | file(s) | what it models |
|---|---|---|
| `Results`, `Values`, `Data` | — | outcomes, JSON scalars with Python's `int()`/`str()`, records and datasets |
| `Text` | — | the string operations the program relies on: `strip`, whitespace collapsing, `lower`, `find`, `count`, `split` halves, `replace`, decimal numerals, `int()` on text |
| `Validation` | `validation_utils.py` | amounts, strict and lenient month formats, record and dataset normalization |
| `Dates` | `date_utils.py` | parsing, formatting and stepping months |
| `Parser` | `parser_utils.py` | the command parser and its error messages |
| `Sorting`, `Calculations` | `calculations.py` | stable sort by date key, the month lookup, totals, averages, the prediction, the data checks |
| `Budget` | `budget.py` | adding and updating records, the bank balance, loading and saving the file |
| `Session` | `main.py` | the whole interactive session as a state machine: a stack of screens, one step per input line |

The terminal, the file system and the clock are parameters:
- A session is `Run(Start(data), lines)`.
- Loading takes the file's parsed JSON content (`Option<RawData>`, `None` when there is no file).
- Saving yields the JSON content that would be written.

## Model

| member | source | states |
|---|---|---|
| Values.IntStrRoundTrip | budget_app/budget.py:70-72 | an integer written as its decimal string by the save coerces back to the same integer with `int()` |
| Validation.EnsureValidFinancialInput | budget_app/validation_utils.py:94-119 | an integer passes unchanged exactly when it is not negative (exact integers; see Left out for magnitudes of 2^53 and more); text goes through separator removal and `int(float(...))`; `True` and `False` read as 1 and 0; `None` is rejected |
| Validation.AmountOfDigits | budget_app/validation_utils.py:108-117 | a plain digit string is accepted with its decimal value |
| Validation.AmountRoundTrip | budget_app/validation_utils.py:108-117 | the decimal text of any natural number reads back as that number |
| Validation.AmountIgnoresSeparator | budget_app/validation_utils.py:109-110 | inserting a comma or a space anywhere in an amount does not change how it reads |
| Validation.AmountTruncates | budget_app/validation_utils.py:112 | `digits.fraction` truncates toward zero to the integer part |
| Validation.AmountNegative | budget_app/validation_utils.py:112-115 | a negative decimal is rejected unless it truncates to 0 (`-0.5` is accepted as 0) |
| Validation.AmountNegativeInteger | budget_app/validation_utils.py:112-115 | a negative integer is rejected, and `-0` reads as 0 |
| Validation.StrictMonthMeaning | budget_app/validation_utils.py:122-134 | the strict format is exactly two digits, `/`, two digits, with the month 01 to 12 |
| Validation.LenientMonthMeaning | budget_app/validation_utils.py:137-151 | the lenient format is a one- or two-digit month 1 to 12, `/` or `.`, and two year digits |
| Validation.StrictIsLenient | budget_app/validation_utils.py:122-151 | every strictly formatted month is also accepted leniently |
| Validation.NormalizeRecord | budget_app/validation_utils.py:16-51 | a record without a month fails; otherwise it succeeds exactly when both amounts coerce with `int()` (absent means 0); the result holds those integers and keeps every other key |
| Validation.NormalizeRecords | budget_app/validation_utils.py:81-89 | at most as many records come out as went in; all come out exactly when all are valid; every output record is well formed with integer amounts |
| Validation.NormalizeRecordsConcat | budget_app/validation_utils.py:81-89 | normalizing a concatenation normalizes the parts separately, so kept records stay in their original order |
| Validation.NormalizeRecordsMembers | budget_app/validation_utils.py:82-87 | a record is in the output exactly when some input record normalizes to it |
| Validation.NormalizeRecordsAllValid | budget_app/validation_utils.py:82-89 | when every record is valid, output position i is the normalization of input position i |
| Validation.NormalizeData | budget_app/validation_utils.py:54-91 | it fails exactly when a present bank balance does not coerce with `int()`; otherwise the balance is that integer (0 when absent) and the records are the normalized list (empty when absent) |
| Dates.ParseMonth | budget_app/date_utils.py:25-48 | a text goes to the fuzzy parser exactly when it does not hold a single `/`; a parsed month is 1 to 12 and the year is in `datetime`'s range |
| Dates.ParseStrictMonth | budget_app/date_utils.py:40-43 | an `MM/YY` text parses to month MM of year 20YY |
| Dates.ParseMonthOutOfRange | budget_app/date_utils.py:40-43 | a digit month outside 1 to 12 is a parse error |
| Dates.FormatMonth | budget_app/date_utils.py:50-61 | the result is strict `MM/YY` with MM the month and YY the year modulo 100 |
| Dates.FormatParseRoundTrip | budget_app/date_utils.py:25-61 | formatting a parsed strict month gives back the same text |
| Dates.NextMonth | budget_app/date_utils.py:81-91 | the next month is exactly one month later, and does not exist only after December 9999 |
| Dates.NextMonthFromString | budget_app/date_utils.py:63-79 | a result is always a strict month; the fuzzy path is taken exactly when the text does not hold a single `/` |
| Dates.NextWithinYear | budget_app/date_utils.py:63-79 | for months before December the month number goes up by one and the year is unchanged |
| Dates.NextAcrossYear | budget_app/date_utils.py:63-79 | December is followed by January of the next year, and `12/99` by `01/00` |
| Parser.ErrorMessage | budget_app/parser_utils.py:192-209 | the three known codes get their own messages, and exactly the other codes get the unknown-error message |
| Parser.ErrorMessagesDistinct | budget_app/parser_utils.py:203-207 | the parser's error codes all have known messages, and those messages are pairwise different |
| Parser.NormalizedMonthCanonical | budget_app/parser_utils.py:37-61 | every leniently valid month becomes strict `MM/YY` with the same month value and year digits; strict input is unchanged |
| Parser.ParseBlank | budget_app/parser_utils.py:88-92 | a line of only whitespace is the menu command |
| Parser.ParseDigits | budget_app/parser_utils.py:94-97 | a line of digits is a menu option with that number |
| Parser.ParseAdd | budget_app/parser_utils.py:99-109 | `add <rest>` parses as `<rest>` would, and any error in it becomes `invalid_command` |
| Parser.ParseBank | budget_app/parser_utils.py:111-122 | `bank <x>` sets the balance to the amount `x` reads as, or gives `invalid_amount` |
| Parser.ParseBareBank | budget_app/parser_utils.py:124-127 | a bare `bank` is `invalid_command` |
| Parser.ParseUpdate | budget_app/parser_utils.py:129-158 | `±digits month` is income (`+`) or expense (`-`) with the normalized month, or `invalid_date` when the month is not leniently valid |
| Parser.ParseSigned | budget_app/parser_utils.py:160-165 | any other line starting with a sign is `invalid_command` |
| Parser.ParseKeyword | budget_app/parser_utils.py:167-185 | the keywords `save`, `return`, `menu`, `main`, `exit`, `graph`, `view` and `add` are recognized case-insensitively |
| Parser.ParsedMonthCanonical | budget_app/parser_utils.py:64-189 | every income or expense command the parser produces, from any line, carries a strictly formatted month |
| Sorting.Sort | budget_app/calculations.py:30 | the result is ordered by key and is a permutation of the input |
| Sorting.SortStable | budget_app/calculations.py:30 | records with equal keys keep their relative order, as Python's `sorted` does |
| Sorting.SortSortedIdentity | budget_app/calculations.py:30 | sorting an already ordered list changes nothing |
| Sorting.SortIncreasing | budget_app/calculations.py:30 | with pairwise different keys the result is strictly increasing |
| Calculations.DateKeyStrict | budget_app/calculations.py:21-28 | a strict month sorts by (year, month) |
| Calculations.DateKeyInjective | budget_app/calculations.py:21-28 | different strict months have different sort keys |
| Calculations.DateKeyMalformed | budget_app/calculations.py:23-28 | a month without exactly one `/` sorts as (0, 0) |
| Calculations.SortRecords | budget_app/calculations.py:10-30 | the records come out in date order, as a permutation of the input |
| Calculations.ExistingRecord | budget_app/calculations.py:32-52 | the lookup finds nothing exactly when no stored month strips to the stripped query; otherwise it returns the first record that does |
| Calculations.RemainingAddsUp | budget_app/calculations.py:54-75 | the summed remainders equal total income minus total expenses, with unreadable amounts counted as 0 |
| Calculations.Remaining | budget_app/calculations.py:54-75 | salary minus expenses whenever both amounts read with `int()`, as integers or numeric text; an unreadable amount counts as 0 |
| Calculations.TotalConcat | budget_app/calculations.py:95-104 | totals add up over concatenated record lists |
| Calculations.Averages | budget_app/calculations.py:77-106 | (0, 0) for no records; otherwise each average times the record count is the total |
| Calculations.TruncMean | budget_app/calculations.py:119-121 | `int()` of a float average is the integer quotient rounded toward zero |
| Calculations.Predict | budget_app/calculations.py:108-124 | the predicted amounts are the averages truncated toward zero, and the difference is their difference |
| Calculations.PredictExample | budget_app/calculations.py:108-124 | two months of 1000/800 and 1200/900 predict 1100, 850 and 250 |
| Calculations.AnyPositiveMeaning | budget_app/calculations.py:126-164 | the data check holds exactly when a readable positive amount comes before the first unreadable one |
| Calculations.AnyPositiveNormalized | budget_app/calculations.py:126-164 | on integer amounts the data check holds exactly when some amount is positive |
| Data.Set | budget_app/budget.py:107-113 | setting one amount changes that amount only |
| Budget.FindMonth | budget_app/budget.py:107-108 | the exact-match lookup returns the first record with that month, and nothing exactly when none has it |
| Budget.NewRecord | budget_app/budget.py:115-119 | a new record carries the amount in the targeted field and 0 in the other |
| Budget.Store | budget_app/budget.py:107-123 | an existing month gets the field overwritten in place and nothing else changes; otherwise the new record is added and the list re-sorted as a permutation; the balance is untouched |
| Budget.AddMonthlyRecord | budget_app/budget.py:81-125 | it succeeds exactly when the amount is valid and the month is strict `MM/YY`, with the amount error reported first; a success is the validated amount stored into that month |
| Budget.UpdateBankBalance | budget_app/budget.py:127-148 | a valid amount replaces the balance and leaves the records alone; an invalid one is an error |
| Budget.OverwriteKeepsMonths | budget_app/budget.py:107-113 | overwriting an amount keeps the month list |
| Budget.AppendedFound | budget_app/budget.py:115-123 | after adding a new month, looking it up finds the new record |
| Budget.StoreIdempotent | budget_app/budget.py:107-123 | storing the same amount twice is the same as storing it once |
| Budget.AddIdempotent | budget_app/budget.py:81-125 | repeating a successful add changes nothing further |
| Budget.BankUpdateOverrides | budget_app/budget.py:127-148 | the last balance update wins |
| Budget.AddKeepsCanonical | budget_app/budget.py:81-125 | strict, distinct months in date order stay that way after an add |
| Budget.AddKeepsNormalized | budget_app/budget.py:81-125 | well-formed records with integer amounts stay that way after an add |
| Budget.MigrateBalance | budget_app/budget.py:34-38 | a legacy `current_balance` becomes `bank_balance` only when that is absent, a missing balance becomes 0, and other keys are untouched |
| Budget.LoadData | budget_app/budget.py:15-51 | no file or no record list gives the default data; the unnormalized fallback is taken exactly when the balance does not coerce; otherwise the loaded records are the file's records normalized in order (the valid ones kept), the data is normalized and has no more records than the file |
| Budget.SaveData | budget_app/budget.py:53-79 | the records are saved in order, each with its month, its amounts turned into text by `str()`, and its own set of keys; beside them only the balance is written |
| Budget.SaveRecordRoundTrip | budget_app/validation_utils.py:16-51 | a saved normalized record normalizes back to itself, other keys and their values included |
| Budget.SaveRecordsRoundTrip | budget_app/validation_utils.py:81-89 | a saved list of normalized records normalizes back to the same list |
| Budget.SavedDataNormalizes | budget_app/validation_utils.py:54-91 | normalizing saved normalized data gives that data back |
| Budget.LoadSaveRoundTrip | budget_app/budget.py:15-79 | loading what was saved from normalized data gives back the same data |
| Session.Gap | budget_app/main.py:166-183 | the graphs and summary are available exactly when there are records with some income and some expenses; no records is reported first |
| Session.ExitApp | budget_app/main.py:696-700 | exiting ends the session and writes the current data |
| Session.BankStep | budget_app/main.py:632-645 | a balance command stores the balance, saves it and stays on the screen |
| Session.OpenDialog | budget_app/main.py:541-552 | the duplicate dialog opens exactly when both stored amounts of the month read as integers; otherwise the step fails without changes |
| Session.RecordStep | budget_app/main.py:646-695 | an income or expense line either opens the dialog without touching the data, changes nothing, or applies a successful add and saves it |
| Session.DuplicateOpensDialog | budget_app/main.py:646-670 | the dialog opens exactly when the stripped month exists with a positive targeted amount and both amounts read as integers |
| Session.NoDuplicateAddsDirectly | budget_app/main.py:646-670 | without such a month the add is applied and saved directly, or reported as failed with no change |
| Session.DialogStep | budget_app/main.py:534-577 | the dialog always closes, and the data either stays or becomes the resolved data and is saved |
| Session.ResolveMerge | budget_app/main.py:569-572 | choice 1 stores the sum of the old and the new amount in place |
| Session.ResolveOverwrite | budget_app/main.py:573-575 | choice 2 stores the new amount in place |
| Session.DialogCancel | budget_app/main.py:576-577 | any other choice keeps the data and reports the cancellation |
| Session.MainMenuOptions | budget_app/main.py:609-625 | option 1 opens the summary, or the add menu when data is missing; option 2 opens the add menu; option 3 exits and saves; other numbers are an invalid choice |
| Session.MainMenuBlankLine | budget_app/main.py:603-631 | a blank line at the main menu is an invalid input and changes nothing |
| Session.AddMenuNoOps | budget_app/main.py:429-530 | menu numbers and `add` are ignored in the add menu |
| Session.ParseErrorChangesNothing | budget_app/main.py:251-253 | a parse error shows its message and changes nothing |
| Session.GraphSwallowsNextLine | budget_app/main.py:269-288 | with complete data `graph` shows the graphs, and the next line, whatever it is, only returns to the menu; when drawing them raises (an unreadable amount, or a last stored month that `get_next_month_from_string` rejects), the program stops with the data and the file unchanged |
| Session.GraphCrashesOnBadMonth | budget_app/visualization.py:17-27 | a last stored month like `13/25`, which loading keeps but `parse_month` rejects, makes the graph command with complete data end the program, the file keeping the last save |
| Session.WaitSwallows | budget_app/main.py:377-391 | the wait after the graphs consumes exactly one line and changes nothing else |
| Session.GraphReportsGap | budget_app/main.py:445-459 | with missing data `graph` in the add or view menu reports what is missing and stays |
| Session.ViewOptionTwoWaits | budget_app/main.py:230-236 | view option 2 shows the graphs or the missing-data message and then waits for a line, except that with complete data whose graphs raise the program stops with the data and the file unchanged |
| Session.StartShape | budget_app/main.py:579-603 | a session starts at the main menu alone, and the file loads as the data in memory (nothing is written at start) |
| Session.RunKeepsShape | budget_app/main.py:579-731 | over any input the screens stay properly nested and the file always holds the current data |
| Session.SessionSaves | budget_app/main.py:579-731 | after any sequence of lines the file holds exactly the data in memory |
| Session.StepAfterEnd | budget_app/main.py:696-700 | after the end no line changes anything, and a step that ends the session leaves the data unchanged and the file holding it (saved by "save and exit", or already saved when the graphs raise) |
| Session.RunKeepsCanonical | budget_app/main.py:579-731 | data with strict, distinct months in date order keeps that property over any session |
| Session.RunKeepsNormalized | budget_app/main.py:579-731 | normalized data stays normalized over any session |
| Session.SessionFileLoadsBack | budget_app/main.py:579-731 | after any session on a loaded file, loading the saved file gives back the data the session ended with |

## Left out

- Calculations.Averages: the program divides with floating-point `/`, so its average is the float nearest to the quotient. The model's average is the exact quotient in `real`; the contract does not promise the float rounding.
- Calculations.TruncMean: `int()` of the float average equals the integer quotient rounded toward zero only while the total and the record count stay below 2^53 in magnitude. Above that the float quotient is rounded first: one record of salary 9007199254740993 gives 9007199254740992 in the program.
- Calculations.Predict: predicts from the exact quotient, so it agrees with `predict_next_month` only while totals stay below 2^53, as stated for `Calculations.TruncMean`.
- Float amounts: `int(float(value))` also reads exponents (`1e3`), `nan` and `inf`. `Validation.AmountFromText` rejects all three. On `inf`, `int()` raises OverflowError, which the `except ValueError` of the bank and update commands does not catch, so the program would crash. The model has no crash outcome for it. Floats above 2^53 lose precision in Python; the model reads such decimals exactly.
- JSON numbers with a fraction: `Values.Value` has no float case. A salary stored as `12.5` would be truncated by `int()`; the model has no such value.
- Validation.EnsureValidFinancialInput: for an integer the program runs `int(float(n))`, which rounds integers of magnitude 2^53 and more to a float first and raises OverflowError beyond the float range; no caller catches OverflowError, so the program would crash. The model returns every non-negative integer unchanged. This reaches `Budget.AddMonthlyRecord` and `Session.ResolveMerge`: merging `+9007199254740992 03/25` with `+1 03/25` stores 9007199254740992 in the program and 9007199254740993 in the model.
- Validation.EnsureValidFinancialInput: Python's `float()` accepts underscores between digits (`"1_000"`, so `bank 1_000` sets the balance to 1000). `Validation.AmountFromText`, and with it `Validation.EnsureValidFinancialInput` and the `bank` and update commands, reject them as an invalid amount.
- Underscores in integer text: Python's `int("1_000")` accepts them. `Text.ParseInt` rejects them, and `Values.IntOf`, `Calculations.DateKey` and `Dates.ParseMonth` inherit that.
- Top-level keys of the file other than the balance and the record list: the program keeps and re-saves them. `Data.Dataset` has no place for them, so `Budget.SaveData` writes only the balance and the records.
- `Budget.LoadData`: on the fallback path, where the balance does not coerce, the program runs on the raw, unnormalized data. The model stops at the `Unnormalized` outcome: no session is modelled on such data.
- Validation.NormalizeRecord: a record whose month is present but not a string (a number, `null`) is rejected here, while the program keeps it. The program would fail on it later, at the first `.strip()` of a month.
- Session.ResolveMerge: proved only on canonical data (strict, distinct months in date order). Loaded data need not be canonical: a stored `" 03/25"` is found by the stripped lookup of the dialog but not by the exact lookup of `add_monthly_record`, which then appends a new record instead of merging. For loaded data the model proves only the weaker `Session.RunKeepsShape` and `Session.RunKeepsNormalized`.
- Session.ResolveOverwrite: proved only on canonical data, for the same reason: on a padded stored month the exact lookup of `add_monthly_record` misses and a new record is appended instead of overwriting.
- Session.DialogReadsFound: canonical data only; on other data the dialog's stripped lookup and the exact lookup may find different records.
- Session.ExistingIsExact: canonical data only, for the same reason.
- Session.RunKeepsCanonical: holds only when the session starts on canonical data, which a loaded file need not be.
- Text is ASCII: `str.strip`, `split`, `lower` and `\d` treat only ASCII whitespace, letters and digits. Python's Unicode versions are wider.
- Regular-expression `$` also matches before a final newline. The input lines have no newline, so this is not modelled.
- `parse_date_input` and the fuzzy branch of `parse_month`: these use `dateutil`'s free-form date parser. The model stops at the `Fuzzy` outcome.
- `get_current_next_month`: the clock is a parameter. `Dates.NextMonth` takes today's year and month.
- `validate_month_format` is an alias of the lenient check and is not modelled separately.
- `sorted` is Timsort. It is modelled as a stable insertion sort, which gives the same result for any key.
- `TypeError` and `ValueError` are both modelled as one failed outcome wherever the program catches both.
- Printing, screen clearing, the file itself (`os.path.exists`, `open`, `json.load`/`json.dump`) and its exceptions are not modelled: loading takes the parsed file content, and saving yields the content to write.
- `json.JSONDecodeError` and other load exceptions give the default data. They are modelled as `file == None`.
- A failing write (`save_data` returning False) is not modelled: every save succeeds.
- Drawing the graphs (`visualization.py`) is not part of this model. Only whether it raises (`Session.GraphsBreak`) and the wait for a line that follows it are modelled.
- Session.GraphsBreak: a last stored month without a single `/` goes to the free-form date parser, which may raise too; the model lets the graphs show for it.

=== FILE: budget.dfy ===
/** The record store (budget_app/budget.py): adding or updating a monthly amount,
    setting the bank balance, and the pure halves of loading and saving the file. */
module Budget {
  import opened Results
  import opened Text
  import opened Values
  import opened Data
  import opened Validation
  import opened Sorting
  import opened Calculations

  // ----------------------------------------------------------------- lookup

  /** The month texts of the records, in stored order. */
  function Months(rs: seq<Record>): (ms: seq<string>)
    ensures |ms| == |rs| && forall i :: 0 <= i < |rs| ==> ms[i] == rs[i].month
  {
    seq(|rs|, i requires 0 <= i < |rs| => rs[i].month)
  }

  /** The loop of `add_monthly_record`: the first record whose month is exactly
      `month`, compared without stripping. */
  function FindMonth(rs: seq<Record>, month: string): (i: Option<nat>)
    ensures i.Some? ==> i.value < |rs| && rs[i.value].month == month
    ensures i.Some? ==> forall j :: 0 <= j < i.value ==> rs[j].month != month
    ensures i.None? <==> forall j :: 0 <= j < |rs| ==> rs[j].month != month
  {
    var ms := Months(rs);
    var i := FirstIndex(ms, month);
    assert i.Some? ==> forall j :: 0 <= j < i.value ==> ms[..i.value][j] == ms[j];
    assert i.None? ==> forall j :: 0 <= j < |rs| ==> ms[j] in ms;
    i
  }

  // ------------------------------------------------------------ add / update

  /** The record `add_monthly_record` appends: the targeted field holds the amount,
      the other one 0. */
  function NewRecord(month: string, v: nat, f: Field): (r: Record)
    ensures r.month == month && r.extra == map[] && Get(r, f) == VInt(v)
    ensures forall g :: g != f ==> Get(r, g) == VInt(0)
  {
    match f
    case Salary => Record(month, VInt(v), VInt(0), map[])
    case Expenses => Record(month, VInt(0), VInt(v), map[])
  }

  /** `after` is `before` with the field `f` of record `i` set to `v` and nothing else
      changed: same length, same order, every other record as it was. */
  predicate Overwrote(before: seq<Record>, after: seq<Record>, i: nat, f: Field, v: nat) {
    && |after| == |before| && i < |before|
    && after[i] == Set(before[i], f, VInt(v))
    && forall j :: 0 <= j < |before| && j != i ==> after[j] == before[j]
  }

  /** The part of `add_monthly_record` after validation: overwrite the field of the
      first exact match in place (no re-sort), or append a new record and sort. */
  function Store(d: Dataset, month: string, v: nat, f: Field): (r: Dataset)
    ensures r.bank == d.bank
    ensures FindMonth(d.records, month).Some? ==>
      Overwrote(d.records, r.records, FindMonth(d.records, month).value, f, v)
    ensures FindMonth(d.records, month).None? ==>
      && Sorted(r.records, Key)
      && multiset(r.records) == multiset(d.records) + multiset{NewRecord(month, v, f)}
  {
    match FindMonth(d.records, month)
    case Some(i) => d.(records := d.records[i := Set(d.records[i], f, VInt(v))])
    case None => d.(records := SortRecords(d.records + [NewRecord(month, v, f)]))
  }

  /** `add_monthly_record`: the amount is validated, then the month must be strict
      "MM/YY"; only then is a record touched. */
  function AddMonthlyRecord(d: Dataset, month: string, amount: Value, f: Field): (r: Result<Dataset>)
    ensures r.Ok? <==> EnsureValidFinancialInput(amount).Ok? && StrictMonth(month)
    ensures EnsureValidFinancialInput(amount).Err? ==> r == Err(InvalidAmount)
    ensures EnsureValidFinancialInput(amount).Ok? && !StrictMonth(month) ==> r == Err(InvalidMonth)
    ensures r.Ok? ==> r.value == Store(d, month, EnsureValidFinancialInput(amount).value, f)
    ensures r.Ok? ==> r.value.bank == d.bank
  {
    match EnsureValidFinancialInput(amount)
    case Err(_) => Err(InvalidAmount)
    case Ok(v) =>
      if !StrictMonth(month) then Err(InvalidMonth)
      else Ok(Store(d, month, v, f))
  }

  /** `update_bank_balance`: the validated amount replaces the balance; the records
      are not touched. */
  function UpdateBankBalance(d: Dataset, balance: Value): (r: Result<Dataset>)
    ensures r.Ok? <==> EnsureValidFinancialInput(balance).Ok?
    ensures r.Ok? ==> r.value.records == d.records && r.value.bank == EnsureValidFinancialInput(balance).value
    ensures r.Err? ==> r.error == InvalidBankBalance
  {
    match EnsureValidFinancialInput(balance)
    case Err(_) => Err(InvalidBankBalance)
    case Ok(v) => Ok(d.(bank := v))
  }

  // -------------------------------------------------------- store properties

  lemma SetTwice(r: Record, f: Field, v: Value)
    ensures Set(Set(r, f, v), f, v) == Set(r, f, v)
  {
  }

  lemma SetSame(r: Record, f: Field)
    ensures Set(r, f, Get(r, f)) == r
  {
  }

  /** Overwriting a field keeps every month, so the lookup finds the same record. */
  lemma OverwriteKeepsMonths(before: seq<Record>, after: seq<Record>, i: nat, f: Field, v: nat)
    requires Overwrote(before, after, i, f, v)
    ensures Months(after) == Months(before)
  {
    assert after[i].month == before[i].month;
  }

  /** After the append path, the first record with the new month is the appended one. */
  lemma AppendedFound(d: Dataset, month: string, v: nat, f: Field)
    requires FindMonth(d.records, month).None?
    ensures var r := Store(d, month, v, f).records;
      FindMonth(r, month).Some? && r[FindMonth(r, month).value] == NewRecord(month, v, f)
  {
    var n := NewRecord(month, v, f);
    var r := Store(d, month, v, f).records;
    assert n in multiset(r);
    var k :| 0 <= k < |r| && r[k] == n;
    assert r[k].month == month;
    var j := FindMonth(r, month).value;
    assert r[j] in multiset(d.records) + multiset{n};
  }

  /** Storing the same amount for the same month twice is the same as storing it
      once. */
  lemma StoreIdempotent(d: Dataset, month: string, v: nat, f: Field)
    ensures Store(Store(d, month, v, f), month, v, f) == Store(d, month, v, f)
  {
    var d1 := Store(d, month, v, f);
    match FindMonth(d.records, month)
    case Some(i) =>
      OverwriteKeepsMonths(d.records, d1.records, i, f, v);
      assert FindMonth(d1.records, month) == Some(i);
      SetTwice(d.records[i], f, VInt(v));
      assert d1.records[i := Set(d1.records[i], f, VInt(v))] == d1.records;
    case None =>
      AppendedFound(d, month, v, f);
      var j := FindMonth(d1.records, month).value;
      SetSame(d1.records[j], f);
      assert d1.records[j := Set(d1.records[j], f, VInt(v))] == d1.records;
  }

  /** Repeating an accepted `add_monthly_record` call changes nothing more. */
  lemma AddIdempotent(d: Dataset, month: string, amount: Value, f: Field)
    requires AddMonthlyRecord(d, month, amount, f).Ok?
    ensures AddMonthlyRecord(AddMonthlyRecord(d, month, amount, f).value, month, amount, f)
         == AddMonthlyRecord(d, month, amount, f)
  {
    StoreIdempotent(d, month, EnsureValidFinancialInput(amount).value, f);
  }

  /** Setting the balance twice leaves the second value. */
  lemma BankUpdateOverrides(d: Dataset, a: Value, b: Value)
    requires UpdateBankBalance(d, a).Ok?
    ensures UpdateBankBalance(UpdateBankBalance(d, a).value, b) == UpdateBankBalance(d, b)
  {
  }

  // ------------------------------------------------------- canonical datasets

  /** The shape the tracker's own writes keep: every month strict "MM/YY" and the
      records in strictly ascending (year, month) order. */
  predicate Canonical(d: Dataset) {
    && (forall i :: 0 <= i < |d.records| ==> StrictMonth(d.records[i].month))
    && Increasing(d.records, Key)
  }

  /** In a canonical dataset no month occurs twice. */
  lemma CanonicalUnique(d: Dataset, i: nat, j: nat)
    requires Canonical(d) && i < j < |d.records|
    ensures d.records[i].month != d.records[j].month
  {
  }

  /** Strict months that differ have different sort keys. */
  lemma StrictKeysDiffer(a: Record, b: Record)
    requires StrictMonth(a.month) && StrictMonth(b.month) && a.month != b.month
    ensures Key(a) != Key(b)
  {
    if Key(a) == Key(b) {
      DateKeyInjective(a.month, b.month);
    }
  }

  /** An accepted `add_monthly_record` keeps a canonical dataset canonical. */
  lemma AddKeepsCanonical(d: Dataset, month: string, amount: Value, f: Field)
    requires Canonical(d) && AddMonthlyRecord(d, month, amount, f).Ok?
    ensures Canonical(AddMonthlyRecord(d, month, amount, f).value)
  {
    var v := EnsureValidFinancialInput(amount).value;
    StoreKeepsCanonical(d, month, v, f);
  }

  lemma StoreKeepsCanonical(d: Dataset, month: string, v: nat, f: Field)
    requires Canonical(d) && StrictMonth(month)
    ensures Canonical(Store(d, month, v, f))
  {
    var r := Store(d, month, v, f).records;
    match FindMonth(d.records, month)
    case Some(i) =>
      OverwriteKeepsCanonical(d.records, r, i, f, v);
    case None =>
      AppendKeepsCanonical(d, month, v, f);
  }

  lemma OverwriteKeepsCanonical(before: seq<Record>, after: seq<Record>, i: nat, f: Field, v: nat)
    requires Canonical(Dataset(before, 0)) && Overwrote(before, after, i, f, v)
    ensures Canonical(Dataset(after, 0))
  {
    assert Key(after[i]) == Key(before[i]);
    forall j | 0 <= j < |after|
      ensures Key(after[j]) == Key(before[j]) && after[j].month == before[j].month
    {
    }
  }

  lemma AppendKeepsCanonical(d: Dataset, month: string, v: nat, f: Field)
    requires Canonical(d) && StrictMonth(month) && FindMonth(d.records, month).None?
    ensures Canonical(Store(d, month, v, f))
  {
    var n := NewRecord(month, v, f);
    var s := d.records + [n];
    forall i, j | 0 <= i < j < |s|
      ensures Key(s[i]) != Key(s[j])
    {
      if j == |d.records| {
        StrictKeysDiffer(s[i], n);
      }
    }
    SortIncreasing(s, Key);
    var r := Store(d, month, v, f).records;
    forall k | 0 <= k < |r|
      ensures StrictMonth(r[k].month)
    {
      assert r[k] in multiset(s);
      var m :| 0 <= m < |s| && s[m] == r[k];
    }
  }

  /** An accepted `add_monthly_record` keeps a normalised dataset normalised: the
      amounts it writes are integers and the extra keys stay clear of the fields. */
  lemma AddKeepsNormalized(d: Dataset, month: string, amount: Value, f: Field)
    requires Normalized(d) && AddMonthlyRecord(d, month, amount, f).Ok?
    ensures Normalized(AddMonthlyRecord(d, month, amount, f).value)
  {
    StoreKeepsNormalized(d, month, EnsureValidFinancialInput(amount).value, f);
  }

  lemma StoreKeepsNormalized(d: Dataset, month: string, v: nat, f: Field)
    requires Normalized(d)
    ensures Normalized(Store(d, month, v, f))
  {
    match FindMonth(d.records, month)
    case Some(i) =>
      OverwriteKeepsNormalized(d.records, Store(d, month, v, f).records, i, f, v);
    case None =>
      AppendKeepsNormalized(d, month, v, f);
  }

  lemma OverwriteKeepsNormalized(before: seq<Record>, after: seq<Record>, i: nat, f: Field, v: nat)
    requires Normalized(Dataset(before, 0)) && Overwrote(before, after, i, f, v)
    ensures Normalized(Dataset(after, 0))
  {
    forall j | 0 <= j < |after|
      ensures WellFormed(after[j]) && after[j].salary.VInt? && after[j].expenses.VInt?
    {
      assert Get(after[j], Salary) == after[j].salary && Get(after[j], Expenses) == after[j].expenses;
      assert Get(before[j], Salary) == before[j].salary && Get(before[j], Expenses) == before[j].expenses;
    }
  }

  lemma AppendKeepsNormalized(d: Dataset, month: string, v: nat, f: Field)
    requires Normalized(d) && FindMonth(d.records, month).None?
    ensures Normalized(Store(d, month, v, f))
  {
    var r := Store(d, month, v, f).records;
    var s := d.records + [NewRecord(month, v, f)];
    forall k | 0 <= k < |r|
      ensures WellFormed(r[k]) && r[k].salary.VInt? && r[k].expenses.VInt?
    {
      assert r[k] in multiset(s);
      var m :| 0 <= m < |s| && s[m] == r[k];
      if m == |d.records| {
        assert Get(r[k], Salary) == r[k].salary && Get(r[k], Expenses) == r[k].expenses;
      }
    }
  }

  // ----------------------------------------------------------- load and save

  /** What `load_data` returns: the normalised dataset, or, when normalisation fails
      (the bank balance cannot be coerced), the file's content with only the balance
      migration applied. */
  datatype LoadOutcome = Loaded(data: Dataset) | Unnormalized(raw: RawData)

  /** The legacy key "current_balance" becomes "bank_balance" when the latter is
      absent; a file with neither gets balance 0. */
  function MigrateBalance(fields: map<string, Value>): (r: map<string, Value>)
    ensures "bank_balance" in r
    ensures r["bank_balance"] ==
      if "bank_balance" in fields then fields["bank_balance"]
      else if "current_balance" in fields then fields["current_balance"]
      else VInt(0)
    ensures "current_balance" in r <==> "current_balance" in fields && "bank_balance" in fields
    ensures forall k :: k != "bank_balance" && k != "current_balance" ==>
      (k in r <==> k in fields) && (k in r ==> r[k] == fields[k])
  {
    if "current_balance" in fields && "bank_balance" !in fields then
      fields["bank_balance" := fields["current_balance"]] - {"current_balance"}
    else if "bank_balance" !in fields then fields["bank_balance" := VInt(0)]
    else fields
  }

  /** `load_data` after the file is read: `None` stands for a missing, unreadable or
      undecodable file. A file without "monthly_records" gives the empty dataset. */
  function LoadData(file: Option<RawData>): (r: LoadOutcome)
    ensures file.None? || file.value.records.None? ==> r == Loaded(EmptyDataset)
    ensures file.Some? && file.value.records.Some? ==>
      var b := MigrateBalance(file.value.fields)["bank_balance"];
      && (r.Unnormalized? <==> IntOf(b).None?)
      && (r.Loaded? ==> r.data.bank == IntOf(b).value
                        && r.data.records == NormalizeRecords(file.value.records.value)
                        && |r.data.records| <= |file.value.records.value|)
    ensures r.Loaded? ==> Normalized(r.data)
  {
    match file
    case None => Loaded(EmptyDataset)
    case Some(raw) =>
      if raw.records.None? then Loaded(EmptyDataset)
      else
        var migrated := raw.(fields := MigrateBalance(raw.fields));
        match NormalizeData(migrated)
        case Ok(d) => Loaded(d)
        case Err(_) => Unnormalized(migrated)
  }

  /** One record as `save_data` writes it: salary and expenses as `str()` of their
      value, the other keys as they are. */
  function SaveRecord(r: Record): (raw: RawRecord)
    ensures raw.Keys == r.extra.Keys + RecordKeys
    ensures raw["month"] == VStr(r.month)
    ensures raw["salary"] == VStr(StrOf(r.salary)) && raw["expenses"] == VStr(StrOf(r.expenses))
  {
    r.extra["month" := VStr(r.month)]["salary" := VStr(StrOf(r.salary))]["expenses" := VStr(StrOf(r.expenses))]
  }

  function SaveRecords(rs: seq<Record>): (raws: seq<RawRecord>)
    ensures |raws| == |rs| && forall i :: 0 <= i < |rs| ==> raws[i] == SaveRecord(rs[i])
  {
    if rs == [] then [] else [SaveRecord(rs[0])] + SaveRecords(rs[1..])
  }

  /** `save_data` before the file is written. */
  function SaveData(d: Dataset): (raw: RawData)
    ensures raw.records == Some(SaveRecords(d.records))
    ensures raw.fields == map["bank_balance" := VInt(d.bank)]
  {
    RawData(Some(SaveRecords(d.records)), map["bank_balance" := VInt(d.bank)])
  }

  /** The records a normalised load produces: integer amounts and no extra key
      shadowing a field. */
  predicate Normalized(d: Dataset) {
    forall i :: 0 <= i < |d.records| ==>
      WellFormed(d.records[i]) && d.records[i].salary.VInt? && d.records[i].expenses.VInt?
  }

  /** A saved record normalises back to itself. */
  lemma SaveRecordRoundTrip(r: Record)
    requires WellFormed(r) && r.salary.VInt? && r.expenses.VInt?
    ensures NormalizeRecord(SaveRecord(r)) == Ok(r)
  {
    SavedAmounts(r);
    SavedExtra(r);
  }

  /** The stringified amounts are coerced back to the integers they were. */
  lemma SavedAmounts(r: Record)
    requires r.salary.VInt? && r.expenses.VInt?
    ensures FieldOrZero(SaveRecord(r), "salary") == Some(r.salary.i)
    ensures FieldOrZero(SaveRecord(r), "expenses") == Some(r.expenses.i)
  {
    IntStrRoundTrip(r.salary.i);
    IntStrRoundTrip(r.expenses.i);
  }

  /** Removing the record's own keys from a saved record leaves its extra keys. */
  lemma SavedExtra(r: Record)
    requires WellFormed(r)
    ensures SaveRecord(r) - RecordKeys == r.extra
  {
    var raw := SaveRecord(r);
    assert (raw - RecordKeys).Keys == r.extra.Keys;
  }

  lemma {:induction false} SaveRecordsRoundTrip(rs: seq<Record>)
    requires Normalized(Dataset(rs, 0))
    ensures NormalizeRecords(SaveRecords(rs)) == rs
    decreases |rs|
  {
    if rs != [] {
      NormalizedTail(rs);
      SaveRecordsRoundTrip(rs[1..]);
      SaveRecordRoundTrip(rs[0]);
      NormalizeRecordsCons(SaveRecord(rs[0]), SaveRecords(rs[1..]));
      assert SaveRecords(rs) == [SaveRecord(rs[0])] + SaveRecords(rs[1..]);
      assert rs == [rs[0]] + rs[1..];
    }
  }

  lemma NormalizedTail(rs: seq<Record>)
    requires rs != [] && Normalized(Dataset(rs, 0))
    ensures WellFormed(rs[0]) && rs[0].salary.VInt? && rs[0].expenses.VInt?
    ensures Normalized(Dataset(rs[1..], 0))
  {
    forall i | 0 <= i < |rs[1..]|
      ensures WellFormed(rs[1..][i]) && rs[1..][i].salary.VInt? && rs[1..][i].expenses.VInt?
    {
      assert rs[1..][i] == rs[i + 1];
    }
  }

  lemma NormalizeRecordsCons(raw: RawRecord, raws: seq<RawRecord>)
    ensures NormalizeRecords([raw] + raws) ==
      if NormalizeRecord(raw).Ok? then [NormalizeRecord(raw).value] + NormalizeRecords(raws)
      else NormalizeRecords(raws)
  {
    assert ([raw] + raws)[1..] == raws;
  }

  /** Loading what was saved gives back the dataset: `int(str(n)) == n` for every
      amount and the balance is stored under its current key. */
  lemma LoadSaveRoundTrip(d: Dataset)
    requires Normalized(d)
    ensures LoadData(Some(SaveData(d))) == Loaded(d)
  {
    var raw := SaveData(d);
    assert MigrateBalance(raw.fields) == raw.fields;
    SavedDataNormalizes(d);
  }

  /** The saved file normalises back to the dataset. */
  lemma SavedDataNormalizes(d: Dataset)
    requires Normalized(d)
    ensures NormalizeData(SaveData(d)) == Ok(d)
  {
    assert Normalized(Dataset(d.records, 0));
    SaveRecordsRoundTrip(d.records);
  }
}

=== FILE: calculations.dfy ===
/** Ordering, lookup and the summary figures of the budget (calculations.py). */
module Calculations {
  import opened Results
  import opened Text
  import opened Values
  import opened Data
  import opened Validation
  import opened Sorting

  // ------------------------------------------------------------------ sort key

  /** `get_date_key`: `int()` of the two halves of `month.split("/")`, read as
      `(year, month)`; (0, 0) when there are not exactly two halves or either half is
      not an integer. */
  function DateKey(month: string): MonthKey {
    if Count(month, '/') != 1 then MonthKey(0, 0)
    else
      match (ParseInt(Before(month, '/')), ParseInt(After(month, '/')))
      case (Some(m), Some(y)) => MonthKey(y, m)
      case _ => MonthKey(0, 0)
  }

  function Key(r: Record): MonthKey {
    DateKey(r.month)
  }

  /** A canonical "MM/YY" month sorts as `(YY, MM)`. */
  lemma DateKeyStrict(s: string)
    requires StrictMonth(s)
    ensures DateKey(s) == MonthKey(DecimalValue(s[3..]), DecimalValue(s[..2]))
  {
    StrictMonthMeaning(s);
    SlashHalves(s);
    ParseIntDigits(s[..2]);
    ParseIntDigits(s[3..]);
  }

  /** Distinct canonical months have distinct sort keys. */
  lemma DateKeyInjective(a: string, b: string)
    requires StrictMonth(a) && StrictMonth(b) && DateKey(a) == DateKey(b)
    ensures a == b
  {
    DateKeyStrict(a);
    DateKeyStrict(b);
    StrictMonthMeaning(a);
    StrictMonthMeaning(b);
    TwoDigitsEqual(a[..2], b[..2]);
    TwoDigitsEqual(a[3..], b[3..]);
    forall i | 0 <= i < 5
      ensures a[i] == b[i]
    {
      if i < 2 {
        assert a[i] == a[..2][i] && b[i] == b[..2][i];
      } else if i > 2 {
        assert a[i] == a[3..][i - 3] && b[i] == b[3..][i - 3];
      }
    }
  }

  /** A text that is not two slash-separated integers sorts first, with key (0, 0). */
  lemma DateKeyMalformed(s: string)
    requires Count(s, '/') != 1
    ensures DateKey(s) == MonthKey(0, 0)
  {
  }

  // ---------------------------------------------------------------- sorting

  /** `sort_records_by_date`: Python's stable `sorted` by `get_date_key`. */
  function SortRecords(rs: seq<Record>): (r: seq<Record>)
    ensures Sorted(r, Key) && multiset(r) == multiset(rs)
  {
    Sort(rs, Key)
  }

  // ----------------------------------------------------------------- lookup

  /** The index of the first occurrence of `m` in `ms`. */
  function FirstIndex(ms: seq<string>, m: string): (i: Option<nat>)
    ensures i.Some? ==> i.value < |ms| && ms[i.value] == m && m !in ms[..i.value]
    ensures i.None? <==> m !in ms
  {
    if ms == [] then None
    else if ms[0] == m then Some(0)
    else
      match FirstIndex(ms[1..], m)
      case None => None
      case Some(i) =>
        assert ms[..i + 1] == [ms[0]] + ms[1..][..i];
        Some(i + 1)
  }

  /** The stored months with surrounding whitespace stripped. */
  function StrippedMonths(rs: seq<Record>): (ms: seq<string>)
    ensures |ms| == |rs| && forall i :: 0 <= i < |rs| ==> ms[i] == Strip(rs[i].month)
  {
    seq(|rs|, i requires 0 <= i < |rs| => Strip(rs[i].month))
  }

  /** `get_existing_data_for_month`: the first record whose month matches the given
      one once both are stripped of surrounding whitespace. */
  function ExistingRecord(d: Dataset, month: string): (r: Option<Record>)
    ensures r.None? <==> Strip(month) !in StrippedMonths(d.records)
    ensures r.Some? ==> exists i :: 0 <= i < |d.records| && d.records[i] == r.value
                          && Strip(r.value.month) == Strip(month)
                          && Strip(month) !in StrippedMonths(d.records)[..i]
  {
    match FirstIndex(StrippedMonths(d.records), Strip(month))
    case None => None
    case Some(i) => Some(d.records[i])
  }

  // --------------------------------------------------------- summary figures

  /** `calculate_monthly_remaining`: salary minus expenses, a value `int()` rejects
      counting as 0. */
  function Remaining(r: Record): (m: int)
    ensures IntOf(r.salary).Some? && IntOf(r.expenses).Some? ==> m == IntOf(r.salary).value - IntOf(r.expenses).value
    ensures IntOf(r.salary).None? ==> m == -IntOrZero(r.expenses)
    ensures IntOf(r.expenses).None? ==> m == IntOrZero(r.salary)
  {
    IntOrZero(r.salary) - IntOrZero(r.expenses)
  }

  /** The sum of one field over the records, a value `int()` rejects counting as 0. */
  function Total(rs: seq<Record>, f: Field): int {
    if rs == [] then 0 else Total(rs[..|rs| - 1], f) + IntOrZero(Get(rs[|rs| - 1], f))
  }

  /** The sum of the per-month remainders. */
  function TotalRemaining(rs: seq<Record>): int {
    if rs == [] then 0 else TotalRemaining(rs[..|rs| - 1]) + Remaining(rs[|rs| - 1])
  }

  /** What is left over all months is total income minus total expenses. */
  lemma {:induction false} RemainingAddsUp(rs: seq<Record>)
    ensures TotalRemaining(rs) == Total(rs, Salary) - Total(rs, Expenses)
    decreases |rs|
  {
    if rs != [] {
      RemainingAddsUp(rs[..|rs| - 1]);
    }
  }

  /** Totals add up over a concatenation. */
  lemma {:induction false} TotalConcat(a: seq<Record>, b: seq<Record>, f: Field)
    ensures Total(a + b, f) == Total(a, f) + Total(b, f)
    decreases |b|
  {
    if b == [] {
      assert a + b == a;
    } else {
      assert (a + b)[..|a + b| - 1] == a + b[..|b| - 1];
      TotalConcat(a, b[..|b| - 1], f);
    }
  }

  /** `calculate_averages`: the mean income and mean expenses per record, (0, 0) when
      there are no records. */
  function Averages(rs: seq<Record>): (avg: (real, real))
    ensures rs == [] ==> avg == (0.0, 0.0)
    ensures rs != [] ==> avg.0 * (|rs| as real) == Total(rs, Salary) as real
    ensures rs != [] ==> avg.1 * (|rs| as real) == Total(rs, Expenses) as real
  {
    if rs == [] then (0.0, 0.0)
    else
      var n, a, b := |rs| as real, Total(rs, Salary) as real, Total(rs, Expenses) as real;
      RealDivMul(a, n);
      RealDivMul(b, n);
      (a / n, b / n)
  }

  /** Python `int(x)` of a float: truncation toward zero. */
  function Trunc(x: real): int {
    if x >= 0.0 then x.Floor else -((-x).Floor)
  }

  /** Integer division rounded toward zero. */
  function TruncDiv(a: int, n: nat): (q: int)
    requires n > 0
    ensures a >= 0 ==> 0 <= q * n <= a < q * n + n
    ensures a < 0 ==> q * n - n < a <= q * n <= 0
  {
    if a >= 0 then
      DivBounds(a, n);
      a / n
    else
      var p := (-a) / n;
      DivBounds(-a, n);
      assert (-p) * n == -(p * n);
      -p
  }

  lemma DivBounds(a: nat, n: nat)
    requires n > 0
    ensures 0 <= (a / n) * n <= a < (a / n) * n + n
  {
    assert a == (a / n) * n + a % n;
    assert a / n >= 0;
  }

  /** Truncating the exact mean is truncating integer division. */
  lemma TruncMean(a: int, n: nat)
    requires n > 0
    ensures Trunc(a as real / n as real) == TruncDiv(a, n)
  {
    if a >= 0 {
      FloorMean(a, n);
    } else {
      FloorMean(-a, n);
      assert -(a as real) / n as real == -(a as real / n as real);
    }
  }

  lemma FloorMean(a: nat, n: nat)
    requires n > 0
    ensures (a as real / n as real).Floor == a / n
  {
    DivBounds(a, n);
    MeanBounds(a, n, a / n);
  }

  /** The exact mean lies between the integer quotient and the next integer. */
  lemma MeanBounds(a: nat, n: nat, q: nat)
    requires n > 0 && q * n <= a < q * n + n
    ensures q as real <= a as real / n as real < (q + 1) as real
  {
    var nr := n as real;
    var x := a as real / nr;
    RealDivMul(a as real, nr);
    CastProduct(q, n);
    CastProduct(q + 1, n);
    assert (q + 1) * n == q * n + n;
    MulCancel(q as real, x, nr);
    MulCancel(x, (q + 1) as real, nr);
  }

  lemma CastProduct(a: int, b: int)
    ensures (a * b) as real == a as real * b as real
  {
  }

  lemma RealDivMul(a: real, n: real)
    requires n > 0.0
    ensures (a / n) * n == a
  {
  }

  /** Multiplying by a positive factor preserves order. */
  lemma MulCancel(x: real, y: real, c: real)
    requires c > 0.0
    ensures x * c <= y * c ==> x <= y
    ensures x * c < y * c ==> x < y
  {
    if x > y {
      assert (x - y) * c > 0.0;
    }
    if x >= y {
      assert (x - y) * c >= 0.0;
    }
  }

  /** A forecast for the next month. */
  datatype Prediction = Prediction(income: int, expenses: int, difference: int)

  /** `predict_next_month`: the averages truncated toward zero, and their difference. */
  function Predict(rs: seq<Record>): (p: Prediction)
    ensures rs == [] ==> p == Prediction(0, 0, 0)
    ensures rs != [] ==> p.income == TruncDiv(Total(rs, Salary), |rs|)
    ensures rs != [] ==> p.expenses == TruncDiv(Total(rs, Expenses), |rs|)
    ensures p.difference == p.income - p.expenses
  {
    var avg := Averages(rs);
    var income := Trunc(avg.0);
    var expenses := Trunc(avg.1);
    if rs == [] then Prediction(income, expenses, income - expenses)
    else
      TruncMean(Total(rs, Salary), |rs|);
      TruncMean(Total(rs, Expenses), |rs|);
      Prediction(income, expenses, income - expenses)
  }

  /** Two months of 1000/800 and 1200/900 forecast 1100 income, 850 expenses and 250
      left over. */
  lemma PredictExample(a: Record, b: Record)
    requires a.salary == VInt(1000) && a.expenses == VInt(800)
    requires b.salary == VInt(1200) && b.expenses == VInt(900)
    ensures Predict([a, b]) == Prediction(1100, 850, 250)
  {
    var rs := [a, b];
    assert rs[..1] == [a];
    assert [a][..0] == [];
    assert Total([a], Salary) == 1000;
    assert Total([a], Expenses) == 800;
    assert Total(rs, Salary) == 2200;
    assert Total(rs, Expenses) == 1700;
  }

  // ------------------------------------------------------- data presence

  /** `has_salary_data` / `has_expense_data`: `any(int(field) > 0 ...)` evaluated left
      to right, where a value `int()` rejects ends the scan with False. */
  function AnyPositive(rs: seq<Record>, f: Field): bool {
    if rs == [] then false
    else
      match IntOf(Get(rs[0], f))
      case None => false
      case Some(n) => n > 0 || AnyPositive(rs[1..], f)
  }

  /** Some record has a positive amount and every record before it can be read. */
  predicate PositiveAt(rs: seq<Record>, f: Field, i: int)
    requires 0 <= i < |rs|
  {
    && IntOf(Get(rs[i], f)).Some? && IntOf(Get(rs[i], f)).value > 0
    && forall j :: 0 <= j < i ==> IntOf(Get(rs[j], f)).Some?
  }

  /** The scan answers True exactly when a positive amount is reached before any
      unreadable one. */
  lemma {:induction false} AnyPositiveMeaning(rs: seq<Record>, f: Field)
    ensures AnyPositive(rs, f) <==> exists i :: 0 <= i < |rs| && PositiveAt(rs, f, i)
    decreases |rs|
  {
    if rs != [] {
      AnyPositiveMeaning(rs[1..], f);
      if AnyPositive(rs, f) {
        if !(IntOf(Get(rs[0], f)).value > 0) {
          var i :| 0 <= i < |rs[1..]| && PositiveAt(rs[1..], f, i);
          assert forall j :: 1 <= j <= i ==> rs[j] == rs[1..][j - 1];
          assert PositiveAt(rs, f, i + 1);
        } else {
          assert PositiveAt(rs, f, 0);
        }
      } else {
        forall i | 0 <= i < |rs|
          ensures !PositiveAt(rs, f, i)
        {
          if i > 0 && PositiveAt(rs, f, i) {
            assert IntOf(Get(rs[0], f)).Some?;
            assert forall j :: 0 <= j < i - 1 ==> rs[1..][j] == rs[j + 1];
            assert PositiveAt(rs[1..], f, i - 1);
          }
        }
      }
    }
  }

  /** On records whose amounts are all integers the scan is a plain "some amount is
      positive". */
  lemma AnyPositiveNormalized(rs: seq<Record>, f: Field)
    requires forall i :: 0 <= i < |rs| ==> Get(rs[i], f).VInt?
    ensures AnyPositive(rs, f) <==> exists i :: 0 <= i < |rs| && Get(rs[i], f).i > 0
  {
    AnyPositiveMeaning(rs, f);
    if exists i :: 0 <= i < |rs| && Get(rs[i], f).i > 0 {
      var i :| 0 <= i < |rs| && Get(rs[i], f).i > 0;
      assert PositiveAt(rs, f, i);
    }
  }

  function HasSalaryData(d: Dataset): bool {
    AnyPositive(d.records, Salary)
  }

  function HasExpenseData(d: Dataset): bool {
    AnyPositive(d.records, Expenses)
  }
}

=== FILE: data.dfy ===
/** The tracker's data model: monthly records and the dataset that holds them, in the
    typed form the program works on and in the raw form of the JSON file. */
module Data {
  import opened Results
  import opened Values

  /** One monthly record. `month` is the key ("MM/YY" once canonical); `salary` and
      `expenses` are whatever the record holds (integers after normalisation); `extra`
      keeps any other keys the stored object carried. */
  datatype Record = Record(month: string, salary: Value, expenses: Value, extra: map<string, Value>)

  /** The whole budget: records in stored order and the bank balance. */
  datatype Dataset = Dataset(records: seq<Record>, bank: int)

  /** A record object as read from the file. */
  type RawRecord = map<string, Value>

  /** The file's top-level object: the "monthly_records" list (absent or present) and
      the scalar keys beside it ("bank_balance", the legacy "current_balance", ...). */
  datatype RawData = RawData(records: Option<seq<RawRecord>>, fields: map<string, Value>)

  /** The keys a record's own fields occupy. */
  const RecordKeys: set<string> := {"month", "salary", "expenses"}

  /** The extra keys never shadow the record's own fields. */
  predicate WellFormed(r: Record) {
    r.extra.Keys !! RecordKeys
  }

  /** Which of the two amounts of a record an operation targets. */
  datatype Field = Salary | Expenses

  function Get(r: Record, f: Field): Value {
    match f
    case Salary => r.salary
    case Expenses => r.expenses
  }

  function Set(r: Record, f: Field, v: Value): (r': Record)
    ensures Get(r', f) == v
    ensures r'.month == r.month && r'.extra == r.extra
    ensures forall g :: g != f ==> Get(r', g) == Get(r, g)
  {
    match f
    case Salary => r.(salary := v)
    case Expenses => r.(expenses := v)
  }

  /** The empty dataset the tracker starts from when no usable file exists. */
  const EmptyDataset: Dataset := Dataset([], 0)
}

=== FILE: dates.dfy ===
/** Month arithmetic on "MM/YY" texts (budget_app/date_utils.py): reading a month,
    writing it back, and stepping to the next one. Years are full Gregorian years; the
    two-digit year "YY" stands for 20YY. */
module Dates {
  import opened Results
  import opened Text
  import opened Validation

  /** The year range of Python's `datetime`. */
  const MinYear: int := 1
  const MaxYear: int := 9999

  /** What `parse_month` makes of a text. */
  datatype MonthParse =
    | Parsed(year: int, month: int)   // the first day of that month
    | Invalid                         // ValueError
    | Fuzzy                           // no single '/': handed to a free-form date parser

  /** `parse_month`: a text with exactly one '/' is read as month and two-digit year,
      the year being `int("20" + YY)`; it is invalid unless both halves are integers,
      the month is 1 to 12 and the year is in `datetime`'s range. */
  function ParseMonth(s: string): (p: MonthParse)
    ensures p.Fuzzy? <==> Count(s, '/') != 1
    ensures p.Parsed? ==> 1 <= p.month <= 12 && MinYear <= p.year <= MaxYear
  {
    if Count(s, '/') != 1 then Fuzzy
    else
      match (ParseInt("20" + After(s, '/')), ParseInt(Before(s, '/')))
      case (Some(y), Some(m)) =>
        if MinYear <= y <= MaxYear && 1 <= m <= 12 then Parsed(y, m) else Invalid
      case _ => Invalid
  }

  /** `format_month`: `strftime("%m/%y")`, the month and the year modulo 100, each as
      two digits. */
  function FormatMonth(year: int, month: int): (r: string)
    requires MinYear <= year <= MaxYear && 1 <= month <= 12
    ensures StrictMonth(r) && AllDigits(r[..2]) && AllDigits(r[3..])
    ensures DecimalValue(r[..2]) == month && DecimalValue(r[3..]) == year % 100
  {
    var r := Pad2(month) + "/" + Pad2(year % 100);
    assert r[..2] == Pad2(month) && r[3..] == Pad2(year % 100);
    StrictMonthMeaning(r);
    r
  }

  /** The month after `(year, month)`, as `relativedelta(months=1)` steps; `None` past
      the last year `datetime` can hold. */
  function NextMonth(year: int, month: int): (n: Option<(int, int)>)
    requires MinYear <= year <= MaxYear && 1 <= month <= 12
    ensures n.None? <==> year == MaxYear && month == 12
    ensures n.Some? ==> MinYear <= n.value.0 <= MaxYear && 1 <= n.value.1 <= 12
    ensures n.Some? ==> n.value.0 * 12 + n.value.1 == year * 12 + month + 1
  {
    if month < 12 then Some((year, month + 1))
    else if year < MaxYear then Some((year + 1, 1))
    else None
  }

  /** What `get_next_month_from_string` gives back. */
  datatype NextOutcome =
    | Next(month: string)   // the following month as "MM/YY"
    | Raises                // ValueError
    | FuzzyInput            // the free-form parser's answer, not modelled

  /** `get_next_month_from_string`: parse, step one month, format. */
  function NextMonthFromString(s: string): (r: NextOutcome)
    ensures r.Next? ==> StrictMonth(r.month) && AllDigits(r.month[..2]) && AllDigits(r.month[3..])
    ensures r.FuzzyInput? <==> Count(s, '/') != 1
  {
    NextOf(ParseMonth(s))
  }

  /** The step and format that follow a parse. */
  function NextOf(p: MonthParse): (r: NextOutcome)
    ensures r.Next? ==> StrictMonth(r.month) && AllDigits(r.month[..2]) && AllDigits(r.month[3..])
    ensures r.FuzzyInput? <==> p.Fuzzy?
  {
    match p
    case Fuzzy => FuzzyInput
    case Invalid => Raises
    case Parsed(y, m) =>
      if !(MinYear <= y <= MaxYear && 1 <= m <= 12) then Raises
      else
        match NextMonth(y, m)
        case None => Raises
        case Some(n) => Next(FormatMonth(n.0, n.1))
  }

  // --------------------------------------------------------------- properties

  lemma StrictParts(s: string)
    requires StrictMonth(s)
    ensures Count(s, '/') == 1 && Before(s, '/') == s[..2] && After(s, '/') == s[3..]
    ensures AllDigits(s[..2]) && AllDigits(s[3..]) && |s[3..]| == 2
  {
    StrictMonthMeaning(s);
    SlashHalves(s);
  }

  /** The month number of a canonical "MM/YY". */
  function MonthOf(s: string): (m: int)
    requires StrictMonth(s)
    ensures 1 <= m <= 12 && AllDigits(s[..2]) && m == DecimalValue(s[..2])
  {
    StrictMonthMeaning(s);
    DecimalValue(s[..2])
  }

  /** The two-digit year of a canonical "MM/YY". */
  function YearOf(s: string): (y: int)
    requires StrictMonth(s)
    ensures 0 <= y < 100 && AllDigits(s[3..]) && y == DecimalValue(s[3..])
  {
    StrictMonthMeaning(s);
    DecimalValueTwo(s[3..]);
    DecimalValue(s[3..])
  }

  /** "20" followed by two digits is 2000 plus their value. */
  lemma CenturyValue(yy: string)
    requires |yy| == 2 && AllDigits(yy)
    ensures AllDigits("20" + yy) && DecimalValue("20" + yy) == 2000 + DecimalValue(yy)
  {
    var t := "20" + yy;
    assert t[..3][..2] == "20";
    assert t[..3] == "20" + [yy[0]];
    assert t[..3][..2][..1] == "2";
    assert DecimalValue("2") == 2;
    assert DecimalValue("20") == 20;
    assert DecimalValue(t[..3]) == 200 + DigitValue(yy[0]);
    DecimalValueTwo(yy);
  }

  /** A canonical "MM/YY" is the first of month MM of year 20YY. */
  lemma ParseStrictMonth(s: string)
    requires StrictMonth(s)
    ensures ParseMonth(s) == Parsed(2000 + DecimalValue(s[3..]), DecimalValue(s[..2]))
  {
    StrictParts(s);
    StrictMonthMeaning(s);
    CenturyValue(s[3..]);
    ParseIntDigits("20" + s[3..]);
    ParseIntDigits(s[..2]);
    assert DecimalValue(s[3..]) < 100 by {
      DecimalValueTwo(s[3..]);
    }
  }

  /** Two two-digit halves around a slash with a month number outside 1..12 raise
      ValueError. */
  lemma ParseMonthOutOfRange(s: string)
    requires |s| == 5 && AllDigits(s[..2]) && s[2] == '/' && AllDigits(s[3..])
    requires !(1 <= DecimalValue(s[..2]) <= 12)
    ensures ParseMonth(s) == Invalid
  {
    SlashHalves(s);
    ParseIntDigits(s[..2]);
  }

  /** Writing a parsed canonical month gives back the same text. */
  lemma FormatParseRoundTrip(s: string)
    requires StrictMonth(s)
    ensures ParseMonth(s).Parsed? && FormatMonth(ParseMonth(s).year, ParseMonth(s).month) == s
  {
    ParseStrictMonth(s);
    FormatOfStrict(s);
  }

  lemma FormatOfStrict(s: string)
    requires StrictMonth(s)
    ensures var y := 2000 + DecimalValue(s[3..]);
      MinYear <= y <= MaxYear && 1 <= DecimalValue(s[..2]) <= 12
      && FormatMonth(y, DecimalValue(s[..2])) == s
  {
    StrictMonthMeaning(s);
    FormatKeepsYear(s, DecimalValue(s[..2]));
    var r := FormatMonth(2000 + DecimalValue(s[3..]), DecimalValue(s[..2]));
    TwoDigitsEqual(r[..2], s[..2]);
    assert r == r[..2] + [r[2]] + r[3..];
    assert s == s[..2] + [s[2]] + s[3..];
  }

  /** Formatting any month of the year a canonical month names keeps its "YY". */
  lemma FormatKeepsYear(s: string, m: int)
    requires StrictMonth(s) && 1 <= m <= 12
    ensures 0 <= DecimalValue(s[3..]) < 100
    ensures var r := FormatMonth(2000 + DecimalValue(s[3..]), m);
      r[3..] == s[3..] && DecimalValue(r[..2]) == m
  {
    StrictMonthMeaning(s);
    DecimalValueTwo(s[3..]);
    var r := FormatMonth(2000 + DecimalValue(s[3..]), m);
    StrictMonthMeaning(r);
    TwoDigitsEqual(r[3..], s[3..]);
  }

  lemma NextOfParsed(y: int, m: int)
    requires MinYear <= y < MaxYear && 1 <= m <= 12
    ensures NextOf(Parsed(y, m))
         == if m < 12 then Next(FormatMonth(y, m + 1)) else Next(FormatMonth(y + 1, 1))
  {
    if m < 12 {
      assert NextMonth(y, m) == Some((y, m + 1));
    } else {
      assert NextMonth(y, m) == Some((y + 1, 1));
    }
  }

  lemma NextOfStrict(s: string, y: int, m: int)
    requires StrictMonth(s) && y == 2000 + DecimalValue(s[3..]) && m == DecimalValue(s[..2])
    ensures NextMonthFromString(s) == NextOf(Parsed(y, m))
  {
    ParseStrictMonth(s);
  }

  /** Within a year the next month keeps the year and adds one to the month. */
  lemma NextWithinYear(s: string)
    requires StrictMonth(s) && MonthOf(s) < 12
    ensures NextMonthFromString(s).Next?
    ensures var r := NextMonthFromString(s).month;
      StrictMonth(r) && MonthOf(r) == MonthOf(s) + 1 && r[3..] == s[3..]
  {
    var y, m := 2000 + YearOf(s), MonthOf(s);
    NextOfStrict(s, y, m);
    StepWithinYear(s, y, m);
  }

  lemma StepWithinYear(s: string, y: int, m: int)
    requires StrictMonth(s) && y == 2000 + YearOf(s) && m == MonthOf(s) && m < 12
    ensures NextOf(Parsed(y, m)).Next?
    ensures var r := NextOf(Parsed(y, m)).month;
      StrictMonth(r) && MonthOf(r) == MonthOf(s) + 1 && r[3..] == s[3..]
  {
    FormatKeepsYear(s, m + 1);
    NextOfParsed(y, m);
  }

  /** December steps to January of the next year: "12/YY" gives month 1 and the
      following two-digit year, "99" wrapping to "00". */
  lemma NextAcrossYear(s: string)
    requires StrictMonth(s) && MonthOf(s) == 12
    ensures NextMonthFromString(s).Next?
    ensures var r := NextMonthFromString(s).month;
      StrictMonth(r) && MonthOf(r) == 1 && YearOf(r) == if YearOf(s) == 99 then 0 else YearOf(s) + 1
  {
    var yy := YearOf(s);
    NextOfStrict(s, 2000 + yy, 12);
    StepAcrossYear(s, yy);
  }

  lemma StepAcrossYear(s: string, yy: int)
    requires StrictMonth(s) && yy == YearOf(s) && MonthOf(s) == 12
    ensures NextOf(Parsed(2000 + yy, 12)).Next?
    ensures var r := NextOf(Parsed(2000 + yy, 12)).month;
      StrictMonth(r) && MonthOf(r) == 1 && YearOf(r) == if YearOf(s) == 99 then 0 else YearOf(s) + 1
  {
    YearAfter(yy);
    NextOfParsed(2000 + yy, 12);
  }

  lemma YearAfter(yy: int)
    requires 0 <= yy < 100
    ensures (2000 + yy + 1) % 100 == if yy == 99 then 0 else yy + 1
  {
    assert 2000 + yy + 1 == 20 * 100 + (yy + 1);
  }
}

=== FILE: parser.dfy ===
/** The command parser: one line of user text to a command or an error code, first
    matching rule wins (budget_app/parser_utils.py). Every rule after the first is
    read on the collapsed line, where whitespace is single spaces between words. */
module Parser {
  import opened Results
  import opened Text
  import opened Validation

  /** The parser's error codes: "invalid_command", "invalid_date", "invalid_amount". */
  datatype ErrorCode = UnknownCommand | BadDate | BadAmount

  /** The commands a line can name. */
  datatype Command =
    | Menu
    | MenuOption(option: nat)
    | Add
    | Bank(amount: nat)
    | Income(amount: nat, month: string)
    | Expense(amount: nat, month: string)
    | View
    | Graph
    | Exit

  /** The parser's result: exactly one of a command and an error code. */
  datatype Parsed = Cmd(command: Command) | Error(code: ErrorCode)

  function CodeName(e: ErrorCode): string {
    match e
    case UnknownCommand => "invalid_command"
    case BadDate => "invalid_date"
    case BadAmount => "invalid_amount"
  }

  const CommandMessage: string := "Invalid command format. Please use one of the valid commands or menu options."
  const DateMessage: string := "Invalid date format. Month must be between 1-12 and year should be in YY format (e.g., 3/25 or 3.25)."
  const AmountMessage: string := "Invalid amount format. Please enter a valid number (e.g., 1000)."
  const UnknownErrorMessage: string := "An unknown error occurred."

  /** `get_error_message`: the fixed text for each known code, a fallback for any
      other code. */
  function ErrorMessage(code: string): (msg: string)
    ensures code == "invalid_command" ==> msg == CommandMessage
    ensures code == "invalid_date" ==> msg == DateMessage
    ensures code == "invalid_amount" ==> msg == AmountMessage
    ensures msg == UnknownErrorMessage <==> code !in {"invalid_command", "invalid_date", "invalid_amount"}
  {
    assert |CommandMessage| != |UnknownErrorMessage| && |DateMessage| != |UnknownErrorMessage|
        && |AmountMessage| != |UnknownErrorMessage|;
    if code == "invalid_command" then CommandMessage
    else if code == "invalid_date" then DateMessage
    else if code == "invalid_amount" then AmountMessage
    else UnknownErrorMessage
  }

  /** Distinct codes the parser emits get distinct messages, none of them the
      fallback. */
  lemma ErrorMessagesDistinct(e1: ErrorCode, e2: ErrorCode)
    ensures ErrorMessage(CodeName(e1)) != UnknownErrorMessage
    ensures e1 != e2 ==> ErrorMessage(CodeName(e1)) != ErrorMessage(CodeName(e2))
  {
    assert |CommandMessage| != |DateMessage| && |DateMessage| != |AmountMessage|
        && |AmountMessage| != |CommandMessage|;
    assert CodeName(e1) in {"invalid_command", "invalid_date", "invalid_amount"};
  }

  // ------------------------------------------------------------ month tokens

  /** `normalize_month_format`: a dot separator becomes a slash and a one-digit month
      gets a leading zero. */
  function NormalizeMonthFormat(month: string): string
    requires LenientMonth(month)
  {
    var sep := if '.' in month then '.' else '/';
    var monthPart := Before(month, sep);
    var yearPart := Before(After(month, sep), sep);
    if |monthPart| == 1 then "0" + monthPart + "/" + yearPart
    else monthPart + "/" + yearPart
  }

  lemma SeparatorPosition(s: string)
    requires LenientMonth(s)
    ensures var p := |s| - 3;
      && ('.' in s <==> s[p] == '.')
      && IndexOf(s, s[p]) == Some(p)
      && IndexOf(s[p + 1..], s[p]).None?
  {
    var p := |s| - 3;
    assert forall i :: 0 <= i < |s| && i != p ==> IsDigit(s[i]);
    var r := IndexOf(s, s[p]);
    assert r.Some?;
    var t := s[p + 1..];
    assert forall i :: 0 <= i < |t| ==> t[i] == s[p + 1 + i];
  }

  /** A lenient month token is rewritten to the canonical form naming the same month
      and year; a token already canonical is left as it is. */
  lemma NormalizedMonthCanonical(s: string)
    requires LenientMonth(s)
    ensures StrictMonth(NormalizeMonthFormat(s))
    ensures var m := NormalizeMonthFormat(s);
      DecimalValue(m[..2]) == DecimalValue(s[..|s| - 3]) && m[3..] == s[|s| - 2..]
    ensures StrictMonth(s) ==> NormalizeMonthFormat(s) == s
    ensures |s| == 4 ==> NormalizeMonthFormat(s) == "0" + s[..1] + "/" + s[2..]
    ensures |s| == 5 ==> NormalizeMonthFormat(s) == s[..2] + "/" + s[3..]
  {
    var p := |s| - 3;
    SeparatorPosition(s);
    var sep := if '.' in s then '.' else '/';
    assert sep == s[p];
    assert Before(s, sep) == s[..p];
    assert After(s, sep) == s[p + 1..];
    assert Before(After(s, sep), sep) == s[p + 1..];
    var m := NormalizeMonthFormat(s);
    LenientMonthMeaning(s);
    if |s| == 4 {
      assert m == ['0', s[0], '/', s[2], s[3]];
      DecimalValueOne(s[..1]);
      DecimalValueTwo(m[..2]);
    } else {
      assert m == [s[0], s[1], '/', s[3], s[4]];
      assert m[..2] == s[..2];
    }
  }

  // ------------------------------------------------------------ line shapes

  predicate IsSign(c: char) {
    c == '+' || c == '-'
  }

  /** `^add\s+(.+)$`, case-insensitive, on a collapsed line; the group is `s[4..]`. */
  predicate AddPrefix(s: string) {
    |s| >= 5 && Lower(s[..3]) == "add" && s[3] == ' '
  }

  /** `^bank\s+(.+)$`, case-insensitive, on a collapsed line; the group is `s[5..]`. */
  predicate BankPrefix(s: string) {
    |s| >= 6 && Lower(s[..4]) == "bank" && s[4] == ' '
  }

  /** `^bank\b`, case-insensitive. */
  predicate BankWord(s: string) {
    |s| >= 4 && Lower(s[..4]) == "bank" && (|s| == 4 || !IsWordChar(s[4]))
  }

  /** The longest prefix of `s` made of digits. */
  function DigitPrefix(s: string): (d: string)
    ensures |d| <= |s| && d == s[..|d|] && AllDigits(d)
    ensures |d| < |s| ==> !IsDigit(s[|d|])
  {
    if s == [] || !IsDigit(s[0]) then [] else [s[0]] + DigitPrefix(s[1..])
  }

  /** `[0-9]+[/\.]\d{2}` spanning the whole token. */
  predicate MonthToken(t: string) {
    |t| >= 4 && AllDigits(t[..|t| - 3]) && IsSeparator(t[|t| - 3]) && AllDigits(t[|t| - 2..])
  }

  /** The three groups of an income/expense line. */
  datatype Update = Update(sign: char, amount: string, month: string)

  /** `^([+\-])\s*(\d+)\s+([0-9]+[/\.]\d{2})$` on a collapsed line. */
  function MatchUpdate(s: string): (u: Option<Update>)
    ensures u.Some? ==> IsSign(u.value.sign) && u.value.amount != [] && AllDigits(u.value.amount)
                        && MonthToken(u.value.month)
  {
    if |s| < 2 || !IsSign(s[0]) then None
    else
      var i := if s[1] == ' ' then 2 else 1;
      var ds := DigitPrefix(s[i..]);
      var j := i + |ds|;
      if ds == [] || j >= |s| || s[j] != ' ' then None
      else if MonthToken(s[j + 1..]) then Some(Update(s[0], ds, s[j + 1..]))
      else None
  }

  /** `^[+\-]\s*\d+$`: a signed amount with no month. */
  predicate SignedDigitsOnly(s: string) {
    |s| >= 2 && IsSign(s[0])
    && var i := if s[1] == ' ' then 2 else 1;
       i < |s| && AllDigits(s[i..])
  }

  /** `^[+\-][^\d].*$`: a sign not followed by a digit. */
  predicate SignedNonDigit(s: string) {
    |s| >= 2 && IsSign(s[0]) && !IsDigit(s[1])
  }

  /** Number of digits at the end of `t`. */
  function TrailingDigits(t: string): (n: nat)
    ensures n <= |t| && AllDigits(t[|t| - n..])
    ensures n < |t| ==> !IsDigit(t[|t| - n - 1])
  {
    if t == [] || !IsDigit(t[|t| - 1]) then 0
    else
      var n := TrailingDigits(t[..|t| - 1]);
      DigitsExtend(t, n);
      n + 1
  }

  lemma DigitsExtend(t: string, n: nat)
    requires n < |t| && AllDigits(t[..|t| - 1][|t| - 1 - n..]) && IsDigit(t[|t| - 1])
    ensures AllDigits(t[|t| - (n + 1)..])
  {
    var u, v := t[|t| - (n + 1)..], t[..|t| - 1][|t| - 1 - n..];
    forall i | 0 <= i < |u|
      ensures IsDigit(u[i])
    {
      if i < n {
        assert u[i] == v[i];
      } else {
        assert u[i] == t[|t| - 1];
      }
    }
  }

  /** `^[+\-].*\d+/\d+$`: a sign, then anything, ending in digits, a slash, digits. */
  predicate SignedFractionEnd(s: string) {
    |s| >= 2 && IsSign(s[0])
    && var t := s[1..];
       var n := TrailingDigits(t);
       n >= 1 && |t| - n - 2 >= 0 && t[|t| - n - 1] == '/' && IsDigit(t[|t| - n - 2])
  }

  const MenuWords: set<string> := {"", "save", "return", "menu", "main"}

  /** The one-word commands other than the empty line. */
  const Keywords: set<string> := {"save", "return", "menu", "main", "exit", "graph", "view", "add"}

  // ------------------------------------------------------------------ parsing

  /** `parse_command`: the rules apply to the line with its whitespace collapsed. */
  function ParseCommand(line: string): Parsed
    decreases |line|, 1
  {
    ParseCollapsed(Collapse(line))
  }

  /** The rules of `parse_command`, in order, on a collapsed line. */
  function ParseCollapsed(s: string): Parsed
    decreases |s|, 0
  {
    if s == [] then Cmd(Menu)
    else if AllDigits(s) then Cmd(MenuOption(DecimalValue(s)))
    else if AddPrefix(s) then
      match ParseCommand(s[4..])
      case Cmd(c) => Cmd(c)
      case Error(_) => Error(UnknownCommand)
    else if BankPrefix(s) then
      match AmountFromText(Strip(s[5..]))
      case Ok(v) => Cmd(Bank(v))
      case Err(_) => Error(BadAmount)
    else if BankWord(s) then Error(UnknownCommand)
    else if MatchUpdate(s).Some? then
      var u := MatchUpdate(s).value;
      match AmountFromText(u.amount)
      case Err(_) => Error(BadAmount)
      case Ok(v) =>
        if !LenientMonth(u.month) then Error(BadDate)
        else
          var m := NormalizeMonthFormat(u.month);
          if u.sign == '+' then Cmd(Income(v, m)) else Cmd(Expense(v, m))
    else if SignedDigitsOnly(s) || SignedNonDigit(s) || SignedFractionEnd(s) then
      Error(UnknownCommand)
    else if Lower(s) in MenuWords then Cmd(Menu)
    else if Lower(s) == "exit" then Cmd(Exit)
    else if Lower(s) == "graph" then Cmd(Graph)
    else if Lower(s) == "view" then Cmd(View)
    else if Lower(s) == "add" then Cmd(Add)
    else Error(UnknownCommand)
  }

  // --------------------------------------------------------------- properties

  lemma NoSpaceCollapsed(s: string)
    requires NoSpace(s)
    ensures Collapsed(s)
  {
  }

  /** Lower-casing keeps spaces, digits and signs where they were. */
  lemma LowerKeeps(w: string, i: nat)
    requires i < |w|
    ensures IsSpace(Lower(w)[i]) == IsSpace(w[i])
    ensures IsDigit(Lower(w)[i]) == IsDigit(w[i])
    ensures IsSign(Lower(w)[i]) == IsSign(w[i])
  {
  }

  predicate Letters(k: string) {
    forall i :: 0 <= i < |k| ==> 'a' <= k[i] <= 'z'
  }

  /** A word that lower-cases to letters holds no space, digit or sign. */
  lemma LetterWord(w: string, k: string)
    requires Lower(w) == k && Letters(k)
    ensures NoSpace(w)
    ensures forall i :: 0 <= i < |w| ==> !IsDigit(w[i]) && !IsSign(w[i])
  {
    forall i | 0 <= i < |w|
      ensures !IsSpace(w[i]) && !IsDigit(w[i]) && !IsSign(w[i])
    {
      LowerKeeps(w, i);
    }
  }

  /** A collapsed line that starts with a sign meets none of the keyword rules. */
  lemma SignedLine(s: string)
    requires s != [] && IsSign(s[0])
    ensures !AllDigits(s) && !AddPrefix(s) && !BankPrefix(s) && !BankWord(s)
    ensures Lower(s) !in MenuWords && Lower(s) !in {"exit", "graph", "view", "add"}
  {
    if |s| >= 3 {
      assert Lower(s[..3])[0] == s[0];
    }
    if |s| >= 4 {
      assert Lower(s[..4])[0] == s[0];
    }
    assert Lower(s)[0] == s[0];
  }

  lemma AddShape(kw: string, rest: string)
    requires |kw| == 3 && Lower(kw) == "add" && NoSpace(kw) && rest != []
    ensures var s := kw + " " + rest;
      !AllDigits(s) && AddPrefix(s) && s[4..] == rest
  {
    var s := kw + " " + rest;
    assert s[..3] == kw;
    assert s[3] == ' ' && !IsDigit(s[3]);
  }

  lemma BankLetters()
    ensures Letters("bank")
  {
  }

  lemma BankShape(kw: string, x: string)
    requires |kw| == 4 && Lower(kw) == "bank" && x != []
    ensures var s := kw + " " + x;
      !AllDigits(s) && !AddPrefix(s) && BankPrefix(s) && s[5..] == x
  {
    var s := kw + " " + x;
    assert s[..4] == kw;
    assert s[4] == ' ' && !IsDigit(s[4]);
    assert Lower(s[..3])[0] == LowerChar(kw[0]) == 'b';
  }

  lemma UpdateShape(sign: char, ds: string, tok: string)
    requires IsSign(sign) && ds != [] && AllDigits(ds) && MonthToken(tok)
    ensures Collapsed([sign] + ds + " " + tok)
  {
    var w := [sign] + ds;
    assert NoSpace(w) by {
      assert forall i :: 1 <= i < |w| ==> w[i] == ds[i - 1];
    }
    MonthTokenNoSpace(tok);
    JoinWords(w, tok);
  }

  // The guards each rule of `ParseCollapsed` needs, gathered where no parse is in
  // scope.

  lemma AddFacts(kw: string, rest: string)
    requires |kw| == 3 && Lower(kw) == "add"
    requires rest != [] && Collapsed(rest)
    ensures var s := kw + " " + rest;
      Collapsed(s) && s != [] && !AllDigits(s) && AddPrefix(s) && s[4..] == rest
  {
    LetterWord(kw, "add");
    JoinWords(kw, rest);
    AddShape(kw, rest);
  }

  lemma BankFacts(kw: string, x: string)
    requires |kw| == 4 && Lower(kw) == "bank"
    requires x != [] && Collapsed(x)
    ensures var s := kw + " " + x;
      Collapsed(s) && s != [] && !AllDigits(s) && !AddPrefix(s) && BankPrefix(s) && Strip(s[5..]) == x
  {
    BankLetters();
    LetterWord(kw, "bank");
    JoinWords(kw, x);
    BankShape(kw, x);
    StripTrimmed(x);
  }

  lemma BareBankFacts(kw: string)
    requires |kw| == 4 && Lower(kw) == "bank"
    ensures Collapsed(kw) && kw != [] && !AllDigits(kw) && !AddPrefix(kw) && !BankPrefix(kw)
    ensures BankWord(kw)
  {
    BankLetters();
    LetterWord(kw, "bank");
    NoSpaceCollapsed(kw);
    assert kw[..4] == kw;
    assert !IsDigit(kw[0]);
  }

  lemma UpdateFacts(sign: char, ds: string, tok: string)
    requires IsSign(sign) && ds != [] && AllDigits(ds) && MonthToken(tok)
    ensures var s := [sign] + ds + " " + tok;
      Collapsed(s) && s != [] && !AllDigits(s) && !AddPrefix(s) && !BankPrefix(s) && !BankWord(s)
      && MatchUpdate(s) == Some(Update(sign, ds, tok))
  {
    var s := [sign] + ds + " " + tok;
    UpdateShape(sign, ds, tok);
    UpdateMatches(sign, ds, tok);
    SignedLine(s);
  }

  lemma KeywordFacts(w: string)
    requires Lower(w) in Keywords
    ensures Collapsed(w) && w != [] && !AllDigits(w) && !AddPrefix(w) && !BankPrefix(w)
    ensures !BankWord(w) && MatchUpdate(w).None?
    ensures !(SignedDigitsOnly(w) || SignedNonDigit(w) || SignedFractionEnd(w))
  {
    var k := Lower(w);
    KeywordLetters(k);
    LetterWord(w, k);
    NoSpaceCollapsed(w);
    KeywordShape(w, k);
  }

  lemma MonthTokenNoSpace(tok: string)
    requires MonthToken(tok)
    ensures NoSpace(tok) && !IsSpace(tok[0])
  {
    forall i | 0 <= i < |tok|
      ensures !IsSpace(tok[i])
    {
      if i < |tok| - 3 {
        assert tok[i] == tok[..|tok| - 3][i];
      } else if i > |tok| - 3 {
        assert tok[i] == tok[|tok| - 2..][i - |tok| + 2];
      }
    }
  }

  lemma UpdateMatches(sign: char, ds: string, tok: string)
    requires IsSign(sign) && ds != [] && AllDigits(ds) && MonthToken(tok)
    ensures MatchUpdate([sign] + ds + " " + tok) == Some(Update(sign, ds, tok))
  {
    var s := [sign] + ds + " " + tok;
    assert s[1..] == ds + (" " + tok);
    assert s[0] == sign;
    assert s[1] == ds[0];
    DigitPrefixStops(ds, " " + tok);
    assert s[1 + |ds|] == ' ';
    assert s[1 + |ds| + 1..] == tok;
  }

  lemma DigitPrefixStops(ds: string, rest: string)
    requires AllDigits(ds) && rest != [] && !IsDigit(rest[0])
    ensures DigitPrefix(ds + rest) == ds
  {
    var s := ds + rest;
    assert s[..|ds|] == ds;
  }

  // Each rule of `ParseCollapsed` on its own, given which guards before it fail.

  lemma RuleAdd(s: string)
    requires s != [] && !AllDigits(s) && AddPrefix(s)
    ensures ParseCollapsed(s)
         == match ParseCommand(s[4..])
            case Cmd(c) => Cmd(c)
            case Error(_) => Error(UnknownCommand)
  {
  }

  lemma RuleBank(s: string, x: string)
    requires s != [] && !AllDigits(s) && !AddPrefix(s) && BankPrefix(s) && Strip(s[5..]) == x
    ensures ParseCollapsed(s)
         == match AmountFromText(x)
            case Ok(v) => Cmd(Bank(v))
            case Err(_) => Error(BadAmount)
  {
  }

  lemma RuleBankWord(s: string)
    requires s != [] && !AllDigits(s) && !AddPrefix(s) && !BankPrefix(s) && BankWord(s)
    ensures ParseCollapsed(s) == Error(UnknownCommand)
  {
  }

  lemma RuleUpdate(s: string)
    requires s != [] && !AllDigits(s) && !AddPrefix(s) && !BankPrefix(s) && !BankWord(s)
    requires MatchUpdate(s).Some?
    ensures var u := MatchUpdate(s).value;
      ParseCollapsed(s)
        == if !LenientMonth(u.month) then Error(BadDate)
           else if u.sign == '+' then Cmd(Income(DecimalValue(u.amount), NormalizeMonthFormat(u.month)))
           else Cmd(Expense(DecimalValue(u.amount), NormalizeMonthFormat(u.month)))
  {
    AmountOfDigits(MatchUpdate(s).value.amount);
  }

  lemma RuleWords(s: string)
    requires s != [] && !AllDigits(s) && !AddPrefix(s) && !BankPrefix(s) && !BankWord(s)
    requires MatchUpdate(s).None?
    ensures SignedDigitsOnly(s) || SignedNonDigit(s) || SignedFractionEnd(s) ==>
      ParseCollapsed(s) == Error(UnknownCommand)
    ensures !(SignedDigitsOnly(s) || SignedNonDigit(s) || SignedFractionEnd(s)) ==>
      ParseCollapsed(s)
        == if Lower(s) in MenuWords then Cmd(Menu)
           else if Lower(s) == "exit" then Cmd(Exit)
           else if Lower(s) == "graph" then Cmd(Graph)
           else if Lower(s) == "view" then Cmd(View)
           else if Lower(s) == "add" then Cmd(Add)
           else Error(UnknownCommand)
  {
  }

  /** A line already in collapsed form is parsed by the rules directly. */
  lemma CollapsedLine(line: string)
    requires Collapsed(line)
    ensures ParseCommand(line) == ParseCollapsed(line)
  {
    CollapseCollapsed(line);
  }

  /** A blank line (nothing but whitespace) is the `menu` command. */
  lemma ParseBlank(line: string)
    requires forall i :: 0 <= i < |line| ==> IsSpace(line[i])
    ensures ParseCommand(line) == Cmd(Menu)
  {
    CollapseEmpty(line);
  }

  /** A line of digits selects the menu option with that decimal value. */
  lemma ParseDigits(ds: string)
    requires ds != [] && AllDigits(ds)
    ensures ParseCommand(ds) == Cmd(MenuOption(DecimalValue(ds)))
  {
    NoSpaceCollapsed(ds);
    CollapsedLine(ds);
  }

  /** `add <rest>` is exactly what `<rest>` parses to when that is a command, and
      `invalid_command` when it is an error; the keyword is case-insensitive. */
  lemma ParseAdd(kw: string, rest: string)
    requires |kw| == 3 && Lower(kw) == "add"
    requires rest != [] && Collapsed(rest)
    ensures Collapsed(kw + " " + rest)
    ensures ParseCommand(kw + " " + rest)
         == match ParseCommand(rest)
            case Cmd(c) => Cmd(c)
            case Error(_) => Error(UnknownCommand)
  {
    AddRule(kw, rest);
    CollapsedLine(kw + " " + rest);
  }

  lemma AddRule(kw: string, rest: string)
    requires |kw| == 3 && Lower(kw) == "add"
    requires rest != [] && Collapsed(rest)
    ensures Collapsed(kw + " " + rest)
    ensures ParseCollapsed(kw + " " + rest)
         == match ParseCommand(rest)
            case Cmd(c) => Cmd(c)
            case Error(_) => Error(UnknownCommand)
  {
    AddFacts(kw, rest);
    RuleAdd(kw + " " + rest);
  }

  /** `bank <x>` sets the bank balance to the amount `x` reads as, or reports
      `invalid_amount`; the keyword is case-insensitive. */
  lemma ParseBank(kw: string, x: string)
    requires |kw| == 4 && Lower(kw) == "bank"
    requires x != [] && Collapsed(x)
    ensures ParseCommand(kw + " " + x)
         == match AmountFromText(x)
            case Ok(v) => Cmd(Bank(v))
            case Err(_) => Error(BadAmount)
  {
    BankRule(kw, x);
    CollapsedLine(kw + " " + x);
  }

  lemma BankRule(kw: string, x: string)
    requires |kw| == 4 && Lower(kw) == "bank"
    requires x != [] && Collapsed(x)
    ensures Collapsed(kw + " " + x)
    ensures ParseCollapsed(kw + " " + x)
         == match AmountFromText(x)
            case Ok(v) => Cmd(Bank(v))
            case Err(_) => Error(BadAmount)
  {
    BankFacts(kw, x);
    RuleBank(kw + " " + x, x);
  }

  /** A bare `bank` is `invalid_command`. */
  lemma ParseBareBank(kw: string)
    requires |kw| == 4 && Lower(kw) == "bank"
    ensures ParseCommand(kw) == Error(UnknownCommand)
  {
    BareBankRule(kw);
    CollapsedLine(kw);
  }

  lemma BareBankRule(kw: string)
    requires |kw| == 4 && Lower(kw) == "bank"
    ensures Collapsed(kw) && ParseCollapsed(kw) == Error(UnknownCommand)
  {
    BareBankFacts(kw);
    RuleBankWord(kw);
  }

  /** `±digits month`: a month token that passes the lenient check gives an income
      (`+`) or expense (`-`) of that amount in the canonical month; one that fails it
      gives `invalid_date`. */
  lemma ParseUpdate(sign: char, ds: string, tok: string)
    requires IsSign(sign) && ds != [] && AllDigits(ds) && MonthToken(tok)
    ensures Collapsed([sign] + ds + " " + tok)
    ensures ParseCommand([sign] + ds + " " + tok)
         == if !LenientMonth(tok) then Error(BadDate)
            else if sign == '+' then Cmd(Income(DecimalValue(ds), NormalizeMonthFormat(tok)))
            else Cmd(Expense(DecimalValue(ds), NormalizeMonthFormat(tok)))
  {
    UpdateRule(sign, ds, tok);
    CollapsedLine([sign] + ds + " " + tok);
  }

  lemma UpdateRule(sign: char, ds: string, tok: string)
    requires IsSign(sign) && ds != [] && AllDigits(ds) && MonthToken(tok)
    ensures Collapsed([sign] + ds + " " + tok)
    ensures ParseCollapsed([sign] + ds + " " + tok)
         == if !LenientMonth(tok) then Error(BadDate)
            else if sign == '+' then Cmd(Income(DecimalValue(ds), NormalizeMonthFormat(tok)))
            else Cmd(Expense(DecimalValue(ds), NormalizeMonthFormat(tok)))
  {
    UpdateFacts(sign, ds, tok);
    RuleUpdate([sign] + ds + " " + tok);
  }

  /** Every income or expense the parser produces carries a month in the canonical
      MM/YY form, however deeply it is nested under `add`. */
  lemma {:induction false} ParsedMonthCanonical(line: string)
    ensures ParseCommand(line).Cmd? && ParseCommand(line).command.Income? ==>
      StrictMonth(ParseCommand(line).command.month)
    ensures ParseCommand(line).Cmd? && ParseCommand(line).command.Expense? ==>
      StrictMonth(ParseCommand(line).command.month)
    decreases |line|, 1
  {
    var s := Collapse(line);
    assert ParseCommand(line) == ParseCollapsed(s);
    CollapsedMonthCanonical(s);
  }

  lemma {:induction false} CollapsedMonthCanonical(s: string)
    ensures ParseCollapsed(s).Cmd? && ParseCollapsed(s).command.Income? ==>
      StrictMonth(ParseCollapsed(s).command.month)
    ensures ParseCollapsed(s).Cmd? && ParseCollapsed(s).command.Expense? ==>
      StrictMonth(ParseCollapsed(s).command.month)
    decreases |s|, 0
  {
    if s == [] || AllDigits(s) {
    } else if AddPrefix(s) {
      RuleAdd(s);
      ParsedMonthCanonical(s[4..]);
    } else if BankPrefix(s) || BankWord(s) {
    } else if MatchUpdate(s).Some? {
      RuleUpdate(s);
      var u := MatchUpdate(s).value;
      if LenientMonth(u.month) {
        NormalizedMonthCanonical(u.month);
      }
    } else {
      RuleWords(s);
    }
  }

  /** A line starting with a sign that is not a well-formed income/expense line is
      `invalid_command`, whichever of the malformed-sign patterns it meets. */
  lemma ParseSigned(line: string)
    requires var s := Collapse(line); s != [] && IsSign(s[0]) && MatchUpdate(s).None?
    ensures ParseCommand(line) == Error(UnknownCommand)
  {
    var s := Collapse(line);
    SignedLine(s);
    RuleWords(s);
  }

  lemma KeywordLetters(k: string)
    requires k in Keywords
    ensures Letters(k) && k != [] && k[0] != 'b'
  {
  }

  lemma KeywordShape(w: string, k: string)
    requires Lower(w) == k && Letters(k) && k != [] && k[0] != 'b'
    requires forall i :: 0 <= i < |w| ==> !IsDigit(w[i]) && !IsSign(w[i])
    ensures w != [] && !AllDigits(w) && !AddPrefix(w) && !BankPrefix(w)
    ensures !BankWord(w) && MatchUpdate(w).None?
    ensures !(SignedDigitsOnly(w) || SignedNonDigit(w) || SignedFractionEnd(w))
  {
    assert !IsDigit(w[0]) && !IsSign(w[0]);
    if |w| >= 4 {
      assert Lower(w[..4])[0] == k[0];
    }
  }

  /** What each one-word command stands for. */
  function KeywordCommand(k: string): (p: Parsed)
    requires k in Keywords
    ensures p.Cmd?
  {
    if k in MenuWords then Cmd(Menu)
    else if k == "exit" then Cmd(Exit)
    else if k == "graph" then Cmd(Graph)
    else if k == "view" then Cmd(View)
    else if k == "add" then Cmd(Add)
    else Error(UnknownCommand)
  }

  /** The one-word commands, matched case-insensitively. */
  lemma ParseKeyword(w: string)
    requires Lower(w) in Keywords
    ensures ParseCommand(w) == KeywordCommand(Lower(w))
  {
    KeywordRule(w);
    CollapsedLine(w);
  }

  lemma KeywordRule(w: string)
    requires Lower(w) in Keywords
    ensures Collapsed(w) && ParseCollapsed(w) == KeywordCommand(Lower(w))
  {
    KeywordFacts(w);
    RuleWords(w);
  }
}

=== FILE: results.dfy ===
/** Failure-carrying return types. The budget tracker signals failure by raising
    ValueError; the model returns an `Err` with the reason instead. */
module Results {

  datatype Option<+T> = None | Some(value: T)

  /** The reasons a validation or store operation raises ValueError. */
  datatype Error =
    | InvalidAmount        // not a number, or negative after truncation
    | InvalidMonth         // not in the canonical MM/YY form
    | MissingMonth         // a stored record without a "month" key
    | NonTextMonth         // a stored record whose month is not a string
    | InvalidSalary        // "salary" present but int() rejects it
    | InvalidExpenses      // "expenses" present but int() rejects it
    | InvalidBankBalance   // "bank_balance" present but int() rejects it

  datatype Result<+T> = Ok(value: T) | Err(error: Error)
}

=== FILE: session.dfy ===
/** The interactive session of budget_app/main.py with the terminal abstracted away:
    every line the user types is one step of a state machine. The nested handler
    calls of the program (main menu, add-data menu, view-data menu, duplicate-entry
    dialog) are a stack of screens; the top screen reads the next line. */
module Session {
  import opened Results
  import opened Text
  import opened Values
  import opened Data
  import opened Validation
  import opened Calculations
  import opened Parser
  import opened Budget
  import Dates

  /** The two pages of the view-data menu. */
  datatype Page = Summary | Records

  datatype Screen =
    | MainMenu                                                // `main`'s loop
    | AddMenu                                                 // `handle_add_data`
    | ViewMenu(page: Page)                                    // `handle_view_data`
    | DuplicateDialog(month: string, amount: nat, field: Field)  // `handle_duplicate_month_entry`
    | PressEnter                                              // the `input()` after the graphs or their error

  /** The screens that read exactly one line and then give control back. */
  predicate Transient(sc: Screen) {
    sc.DuplicateDialog? || sc.PressEnter?
  }

  /** Which of the three data checks failed first. */
  datatype DataGap = NoRecords | NoSalary | NoExpenses

  /** The message the next screen shows. */
  datatype Notice =
    | Quiet
    | InvalidChoice                                  // "Invalid choice. Please try again."
    | InvalidInput                                   // "Invalid choice or command format. ..."
    | CommandError(code: ErrorCode)                  // `get_error_message(code)`
    | MissingData(gap: DataGap)                      // "No ... data available. ..."
    | GraphsShown
    | Crashed                                        // the traceback of an uncaught exception
    | BankUpdated(amount: nat)
    | Added(field: Field, amount: nat, month: string)
    | Combined(field: Field, total: int, month: string)
    | Overwritten(field: Field, amount: nat, month: string)
    | Cancelled(month: string)
    | Failed(error: Error)                           // "Error adding income: ..." and alike

  /** `stack` is empty once the program has ended; `saved` is the data the file loads
      as: the loaded data at the start (nothing is written then), afterwards the data
      of the last save. */
  datatype State = State(stack: seq<Screen>, data: Dataset, saved: Dataset, notice: Notice)

  function Start(d: Dataset): State {
    State([MainMenu], d, d, Quiet)
  }

  predicate Ended(s: State) {
    s.stack == []
  }

  // ------------------------------------------------------------- data checks

  /** The checks `display_budget_summary` and the graph commands make, in order. */
  function Gap(d: Dataset): (g: Option<DataGap>)
    ensures g.None? <==> d.records != [] && HasSalaryData(d) && HasExpenseData(d)
    ensures g == Some(NoRecords) <==> d.records == []
  {
    if d.records == [] then Some(NoRecords)
    else if !HasSalaryData(d) then Some(NoSalary)
    else if !HasExpenseData(d) then Some(NoExpenses)
    else None
  }

  /** Both stored amounts of a record read with `int()`. */
  predicate Readable(r: Record) {
    IntOf(r.salary).Some? && IntOf(r.expenses).Some?
  }

  /** Drawing the graphs raises: `create_history_graph` reads every stored amount with
      `int()` and then steps the month of the last record in stored order, and no
      handler around `handle_view_graphs` catches the error, so the program stops. */
  predicate GraphsBreak(d: Dataset) {
    && d.records != []
    && (|| (exists i :: 0 <= i < |d.records| && !Readable(d.records[i]))
        || Dates.NextMonthFromString(d.records[|d.records| - 1].month).Raises?)
  }

  // ------------------------------------------------------------ state moves

  function Push(s: State, sc: Screen, n: Notice): State {
    s.(stack := s.stack + [sc], notice := n)
  }

  function Pop(s: State): State
    requires s.stack != []
  {
    s.(stack := s.stack[..|s.stack| - 1], notice := Quiet)
  }

  function Say(s: State, n: Notice): State {
    s.(notice := n)
  }

  /** "Save and exit": the data is written and the program ends. */
  function ExitApp(s: State): (r: State)
    ensures Ended(r) && r.saved == s.data && r.data == s.data
  {
    s.(stack := [], saved := s.data, notice := Quiet)
  }

  /** A data change that succeeded is auto-saved. */
  function Commit(s: State, d: Dataset, n: Notice): (r: State)
    ensures r.data == d && r.saved == d && r.stack == s.stack && r.notice == n
  {
    s.(data := d, saved := d, notice := n)
  }

  // ------------------------------------------------------------- data steps

  /** The bank command: `update_bank_balance`, then auto-save. */
  function BankStep(s: State, amount: nat): (r: State)
    ensures r.stack == s.stack
    ensures r.data == s.data.(bank := amount) && r.saved == r.data && r.notice == BankUpdated(amount)
  {
    match UpdateBankBalance(s.data, VInt(amount))
    case Ok(d) => Commit(s, d, BankUpdated(amount))
    case Err(e) => Say(s, Failed(e))
  }

  /** `int()` of the targeted field of the record `get_existing_data_for_month`
      finds; `Some(0)` when there is none (the empty record's default "0"). */
  function ExistingAmount(d: Dataset, month: string, f: Field): Option<int> {
    match ExistingRecord(d, month)
    case None => Some(0)
    case Some(r) => IntOf(Get(r, f))
  }

  /** The error `int()` of an unreadable stored amount raises. */
  function FieldError(f: Field): Error {
    match f
    case Salary => InvalidSalary
    case Expenses => InvalidExpenses
  }

  /** The income / expense commands: a month whose record already holds a positive
      amount in the targeted field opens the duplicate dialog; otherwise the amount
      goes straight to `add_monthly_record`. */
  function RecordStep(s: State, month: string, amount: nat, f: Field): (r: State)
    ensures r.stack == s.stack
         || (r.stack == s.stack + [DuplicateDialog(month, amount, f)] && r.data == s.data && r.saved == s.saved)
    ensures || (r.data == s.data && r.saved == s.saved)
            || (&& AddMonthlyRecord(s.data, month, VInt(amount), f).Ok?
                && r.data == AddMonthlyRecord(s.data, month, VInt(amount), f).value && r.saved == r.data)
  {
    match ExistingAmount(s.data, month, f)
    case None => Say(s, Failed(FieldError(f)))
    case Some(e) =>
      if ExistingRecord(s.data, month).Some? && e > 0 then
        OpenDialog(s, ExistingRecord(s.data, month).value, month, amount, f)
      else
        match AddMonthlyRecord(s.data, month, VInt(amount), f)
        case Ok(d) => Commit(s, d, Added(f, amount, month))
        case Err(err) => Say(s, Failed(err))
  }

  /** Before it asks, the dialog shows both stored amounts of the record through
      `int()`; one that does not read as an integer is the error the command
      reports, and no dialog opens. */
  function OpenDialog(s: State, existing: Record, month: string, amount: nat, f: Field): (r: State)
    ensures r.data == s.data && r.saved == s.saved
    ensures r.stack == s.stack + [DuplicateDialog(month, amount, f)]
        <==> IntOf(existing.salary).Some? && IntOf(existing.expenses).Some?
    ensures r.stack != s.stack + [DuplicateDialog(month, amount, f)] ==> r.stack == s.stack && r.notice.Failed?
  {
    assert |s.stack + [DuplicateDialog(month, amount, f)]| != |s.stack|;
    if IntOf(existing.salary).None? then Say(s, Failed(InvalidSalary))
    else if IntOf(existing.expenses).None? then Say(s, Failed(InvalidExpenses))
    else Push(s, DuplicateDialog(month, amount, f), Quiet)
  }

  /** What the duplicate dialog does with the (stripped) choice: "1" stores existing
      plus new, "2" stores the new amount, anything else cancels. */
  function Resolve(d: Dataset, month: string, amount: nat, f: Field, choice: string): (r: Result<(Dataset, Notice)>)
    ensures choice != "1" && choice != "2" && ExistingAmount(d, month, f).Some? ==> r == Ok((d, Cancelled(month)))
    ensures r.Ok? && r.value.0 != d ==> choice == "1" || choice == "2"
  {
    match ExistingAmount(d, month, f)
    case None => Err(FieldError(f))
    case Some(e) => Answer(d, month, amount, f, e, choice)
  }

  /** The answer to the dialog once the stored amount `e` has been read. */
  function Answer(d: Dataset, month: string, amount: nat, f: Field, e: int, choice: string): (r: Result<(Dataset, Notice)>)
    ensures choice != "1" && choice != "2" ==> r == Ok((d, Cancelled(month)))
  {
    if choice == "1" then
      match AddMonthlyRecord(d, month, VInt(e + amount), f)
      case Ok(d') => Ok((d', Combined(f, e + amount, month)))
      case Err(err) => Err(err)
    else if choice == "2" then
      match AddMonthlyRecord(d, month, VInt(amount), f)
      case Ok(d') => Ok((d', Overwritten(f, amount, month)))
      case Err(err) => Err(err)
    else Ok((d, Cancelled(month)))
  }

  /** The dialog answers and returns to the menu that opened it, which auto-saves. */
  function DialogStep(s: State, month: string, amount: nat, f: Field, choice: string): (r: State)
    requires s.stack != []
    ensures r.stack == s.stack[..|s.stack| - 1]
    ensures || (r.data == s.data && r.saved == s.saved)
            || (&& Resolve(s.data, month, amount, f, choice).Ok?
                && r.data == Resolve(s.data, month, amount, f, choice).value.0 && r.saved == r.data)
  {
    var back := Pop(s);
    match Resolve(s.data, month, amount, f, choice)
    case Ok((d, n)) => Commit(back, d, n)
    case Err(e) => Say(back, Failed(e))
  }

  // ------------------------------------------------------------------ menus

  /** What a menu does with one parsed line, before any data is touched: the menus
      differ only in which action each command selects. */
  datatype Action =
    | Show(notice: Notice)                         // stay on this menu with a message
    | Open(screen: Screen, notice: Notice)         // a nested handler or prompt takes over
    | Close                                        // `return data` to the calling handler
    | Quit                                         // "save and exit"
    | Crash                                        // an uncaught exception ends the program
    | Flip(page: Page)                             // the view menu shows its other page
    | SetBank(amount: nat)                         // `bank <amount>`
    | Enter(month: string, amount: nat, field: Field)  // `+<amount> <month>` / `-<amount> <month>`

  /** Going to the view-data menu: with a data gap the view redirects straight to the
      add-data menu, and leaving that menu also leaves the view. */
  function ViewEntry(gap: Option<DataGap>): (a: Action)
    ensures a.Open? && a.screen != MainMenu && !Transient(a.screen)
    ensures a.screen == ViewMenu(Summary) <==> gap.None?
  {
    match gap
    case Some(g) => Open(AddMenu, MissingData(g))
    case None => Open(ViewMenu(Summary), Quiet)
  }

  /** Drawing the graphs once the data checks have passed: the program stops when
      drawing `breaks`, and otherwise waits for Enter. */
  function ShowGraphs(breaks: bool): (a: Action)
    ensures a.Crash? <==> breaks
    ensures !breaks ==> a == Open(PressEnter, GraphsShown)
  {
    if breaks then Crash else Open(PressEnter, GraphsShown)
  }

  /** The graph command inside the add-data and view-data menus: the data checks come
      first and only report; with complete data `handle_view_graphs` shows the graphs
      and waits for Enter, unless drawing them raises. */
  function GraphCommand(gap: Option<DataGap>, breaks: bool): (a: Action)
    ensures a.Open? <==> gap.None? && !breaks
    ensures a.Crash? <==> gap.None? && breaks
    ensures a.Open? ==> a.screen == PressEnter && a.notice == GraphsShown
    ensures !a.Open? && !a.Crash? ==> a == Show(MissingData(gap.value))
  {
    match gap
    case Some(g) => Show(MissingData(g))
    case None => ShowGraphs(breaks)
  }

  /** `handle_view_graphs` called directly (option 2 of the view menu): it makes the
      same checks itself, waits for Enter after their message, and with complete data
      draws the graphs. */
  function GraphScreen(gap: Option<DataGap>, breaks: bool): (a: Action)
    ensures a.Crash? <==> gap.None? && breaks
    ensures !a.Crash? ==> a.Open? && a.screen == PressEnter
    ensures !a.Crash? ==> a.notice == if gap.None? then GraphsShown else MissingData(gap.value)
  {
    match gap
    case Some(g) => Open(PressEnter, MissingData(g))
    case None => ShowGraphs(breaks)
  }

  /** One parsed line at the main menu. Its loop never returns to a caller: the only
      way out is "save and exit". */
  function MainAction(p: Parsed, gap: Option<DataGap>, breaks: bool): (a: Action)
    ensures !a.Close? && !a.Flip?
    ensures a.Open? ==> a.screen != MainMenu && !a.screen.DuplicateDialog?
  {
    match p
    case Error(code) => Show(CommandError(code))
    case Cmd(c) =>
      match c
      case MenuOption(n) =>
        if n == 1 then ViewEntry(gap)
        else if n == 2 then Open(AddMenu, Quiet)
        else if n == 3 then Quit
        else Show(InvalidChoice)
      case Add => Open(AddMenu, Quiet)
      case Bank(a) => SetBank(a)
      case Income(a, m) => Enter(m, a, Salary)
      case Expense(a, m) => Enter(m, a, Expenses)
      case Exit => Quit
      case Graph =>
        if gap.Some? then Open(AddMenu, MissingData(gap.value))
        else ShowGraphs(breaks)
      case View => ViewEntry(gap)
      case Menu => Show(InvalidInput)
  }

  /** One parsed line at the add-data menu. Numeric input and a bare `add` match no
      branch of its chain. */
  function AddAction(p: Parsed, gap: Option<DataGap>, breaks: bool): (a: Action)
    ensures !a.Flip?
    ensures a.Open? ==> a.screen != MainMenu && !a.screen.DuplicateDialog?
  {
    match p
    case Error(code) => Show(CommandError(code))
    case Cmd(c) =>
      match c
      case Menu => Close
      case Exit => Quit
      case Graph => GraphCommand(gap, breaks)
      case Bank(a) => SetBank(a)
      case Income(a, m) => Enter(m, a, Salary)
      case Expense(a, m) => Enter(m, a, Expenses)
      case View => ViewEntry(gap)
      case MenuOption(_) => Show(Quiet)
      case Add => Show(Quiet)
  }

  /** One parsed line at the view-data menu showing `page`. */
  function ViewAction(page: Page, p: Parsed, gap: Option<DataGap>, breaks: bool): (a: Action)
    ensures a.Flip? ==> a.page != page
    ensures a.Open? ==> a.screen != MainMenu && !a.screen.DuplicateDialog?
  {
    match p
    case Error(code) => Show(CommandError(code))
    case Cmd(c) =>
      match c
      case MenuOption(n) =>
        if n == 1 then Flip(if page == Summary then Records else Summary)
        else if n == 2 then GraphScreen(gap, breaks)
        else if n == 3 then Close
        else if n == 4 then Quit
        else Show(InvalidChoice)
      case Menu => Close
      case Exit => Quit
      case View => Show(Quiet)
      case Graph => GraphCommand(gap, breaks)
      case Bank(a) => SetBank(a)
      case Income(a, m) => Enter(m, a, Salary)
      case Expense(a, m) => Enter(m, a, Expenses)
      case Add => Open(AddMenu, Quiet)
  }

  /** The action of the menu on top; the checks of `display_budget_summary` and the
      drawing of the graphs are made on the current data. */
  function ScreenAction(top: Screen, p: Parsed, gap: Option<DataGap>, breaks: bool): (a: Action)
    requires !Transient(top)
    ensures Allowed(top, a)
  {
    match top
    case MainMenu => MainAction(p, gap, breaks)
    case AddMenu => AddAction(p, gap, breaks)
    case ViewMenu(page) => ViewAction(page, p, gap, breaks)
  }

  /** The actions that respect the nesting of the handlers: only the main menu is
      never left by returning, only the view menu flips pages, and no menu opens the
      main menu or a dialog directly. */
  predicate Allowed(top: Screen, a: Action) {
    && (a.Open? ==> a.screen != MainMenu && !a.screen.DuplicateDialog?)
    && (a.Close? ==> top != MainMenu)
    && (a.Flip? ==> top.ViewMenu?)
  }

  /** Carrying out an action on the session. */
  function Perform(s: State, a: Action): (r: State)
    requires s.stack != []
    ensures a.Show? || a.Open? || a.Close? || a.Flip? ==> r.data == s.data && r.saved == s.saved
    ensures a.Quit? ==> Ended(r) && r.saved == s.data && r.data == s.data
    ensures a.Crash? ==> Ended(r) && r.saved == s.saved && r.data == s.data
  {
    match a
    case Show(n) => Say(s, n)
    case Open(sc, n) => Push(s, sc, n)
    case Close => Pop(s)
    case Quit => ExitApp(s)
    case Crash => s.(stack := [], notice := Crashed)
    case Flip(page) => s.(stack := s.stack[|s.stack| - 1 := ViewMenu(page)], notice := Quiet)
    case SetBank(amount) => BankStep(s, amount)
    case Enter(month, amount, f) => RecordStep(s, month, amount, f)
  }

  /** The menu on top reads a parsed command. */
  function CommandStep(s: State, p: Parsed): State
    requires s.stack != [] && !Transient(s.stack[|s.stack| - 1])
  {
    Perform(s, ScreenAction(s.stack[|s.stack| - 1], p, Gap(s.data), GraphsBreak(s.data)))
  }

  /** One line typed by the user: `input().strip()`, then `parse_command` for the
      menus. Nothing happens once the program has ended. */
  function Step(s: State, line: string): State {
    Respond(s, Strip(line), ParseCommand(Strip(line)))
  }

  /** The screen on top takes the stripped line `t`, which parses to `p`: the
      duplicate dialog reads `t` as its choice, the wait after the graphs swallows it,
      and a menu acts on `p`. */
  function Respond(s: State, t: string, p: Parsed): State {
    if s.stack == [] then s
    else
      match s.stack[|s.stack| - 1]
      case DuplicateDialog(m, a, f) => DialogStep(s, m, a, f, t)
      case PressEnter => Pop(s)
      case _ => CommandStep(s, p)
  }

  /** The session over a sequence of typed lines. */
  function Run(s: State, lines: seq<string>): State
    decreases |lines|
  {
    if lines == [] then s else Run(Step(s, lines[0]), lines[1..])
  }

  // ------------------------------------------------- duplicate-month entries

  /** A strict "MM/YY" has no surrounding whitespace to strip. */
  lemma StrictStrip(m: string)
    requires StrictMonth(m)
    ensures Strip(m) == m
  {
    assert NoSpace(m) by {
      assert forall i :: 0 <= i < |m| ==> IsDigit(m[i]) || m[i] == '/';
    }
    StripNoSpace(m);
  }

  /** On canonical data the stripped lookup of the duplicate check and
      the exact lookup of `add_monthly_record` find the same record for any month
      that carries no surrounding whitespace. */
  lemma ExistingIsExact(d: Dataset, month: string)
    requires Canonical(d) && Strip(month) == month
    ensures ExistingRecord(d, month) ==
      if FindMonth(d.records, month).Some? then Some(d.records[FindMonth(d.records, month).value])
      else None
  {
    StrippedAreMonths(d.records);
    LookupsAgree(d, month);
  }

  lemma LookupsAgree(d: Dataset, month: string)
    requires StrippedMonths(d.records) == Months(d.records) && Strip(month) == month
    ensures ExistingRecord(d, month) ==
      if FindMonth(d.records, month).Some? then Some(d.records[FindMonth(d.records, month).value])
      else None
  {
    var i := FirstIndex(Months(d.records), month);
    assert FindMonth(d.records, month) == i;
  }

  /** Canonical months are stored stripped. */
  lemma StrippedAreMonths(rs: seq<Record>)
    requires forall i :: 0 <= i < |rs| ==> StrictMonth(rs[i].month)
    ensures StrippedMonths(rs) == Months(rs)
  {
    forall i | 0 <= i < |rs|
      ensures StrippedMonths(rs)[i] == Months(rs)[i]
    {
      StrictStrip(rs[i].month);
    }
  }

  /** An income or expense opens the duplicate dialog exactly when the month's record
      exists, its targeted amount reads as a positive integer and both its amounts
      can be shown; the data is not touched then. */
  lemma DuplicateOpensDialog(s: State, month: string, amount: nat, f: Field)
    ensures var r := RecordStep(s, month, amount, f);
      r.stack == s.stack + [DuplicateDialog(month, amount, f)]
      <==> (&& ExistingRecord(s.data, month).Some?
            && IntOf(Get(ExistingRecord(s.data, month).value, f)).Some?
            && IntOf(Get(ExistingRecord(s.data, month).value, f)).value > 0
            && IntOf(ExistingRecord(s.data, month).value.salary).Some?
            && IntOf(ExistingRecord(s.data, month).value.expenses).Some?)
    ensures var r := RecordStep(s, month, amount, f);
      r.stack == s.stack + [DuplicateDialog(month, amount, f)] ==> r.data == s.data
  {
    assert |s.stack + [DuplicateDialog(month, amount, f)]| != |s.stack|;
  }

  /** Without a positive stored amount the entry goes straight to
      `add_monthly_record`: accepted, it is stored and saved; refused, nothing
      changes. */
  lemma NoDuplicateAddsDirectly(s: State, month: string, amount: nat, f: Field)
    requires ExistingAmount(s.data, month, f).Some?
    requires ExistingRecord(s.data, month).None? || ExistingAmount(s.data, month, f).value <= 0
    ensures var r := RecordStep(s, month, amount, f);
      && r.stack == s.stack
      && (AddMonthlyRecord(s.data, month, VInt(amount), f).Ok? ==>
            r.data == AddMonthlyRecord(s.data, month, VInt(amount), f).value && r.saved == r.data
            && r.notice == Added(f, amount, month))
      && (AddMonthlyRecord(s.data, month, VInt(amount), f).Err? ==>
            r.data == s.data && r.saved == s.saved && r.notice.Failed?)
  {
  }

  /** Choice "1" stores the existing amount plus the new one in the targeted field of
      that month's record, and changes nothing else. */
  lemma ResolveMerge(d: Dataset, month: string, amount: nat, f: Field, i: nat, e: int)
    requires Canonical(d) && StrictMonth(month)
    requires FindMonth(d.records, month) == Some(i)
    requires IntOf(Get(d.records[i], f)) == Some(e) && e > 0
    ensures Resolve(d, month, amount, f, "1") == Ok((Store(d, month, e + amount, f), Combined(f, e + amount, month)))
    ensures Overwrote(d.records, Store(d, month, e + amount, f).records, i, f, e + amount)
  {
    DialogReadsFound(d, month, f, i);
    ResolveStores(d, month, amount, f, e);
  }

  /** Choice "2" stores the new amount in the targeted field of that month's record,
      and changes nothing else. */
  lemma ResolveOverwrite(d: Dataset, month: string, amount: nat, f: Field, i: nat)
    requires Canonical(d) && StrictMonth(month)
    requires FindMonth(d.records, month) == Some(i)
    requires IntOf(Get(d.records[i], f)).Some?
    ensures Resolve(d, month, amount, f, "2") == Ok((Store(d, month, amount, f), Overwritten(f, amount, month)))
    ensures Overwrote(d.records, Store(d, month, amount, f).records, i, f, amount)
  {
    DialogReadsFound(d, month, f, i);
    ResolveStores(d, month, amount, f, IntOf(Get(d.records[i], f)).value);
  }

  /** The dialog reads the amount of the record `add_monthly_record` will overwrite. */
  lemma DialogReadsFound(d: Dataset, month: string, f: Field, i: nat)
    requires Canonical(d) && StrictMonth(month)
    requires FindMonth(d.records, month) == Some(i)
    ensures ExistingAmount(d, month, f) == IntOf(Get(d.records[i], f))
  {
    StrictStrip(month);
    ExistingIsExact(d, month);
  }

  /** With a readable stored amount `e` and a strict month, both storing answers reach
      `add_monthly_record` and succeed. */
  lemma ResolveStores(d: Dataset, month: string, amount: nat, f: Field, e: int)
    requires StrictMonth(month)
    ensures e + amount >= 0 ==>
      Answer(d, month, amount, f, e, "1") == Ok((Store(d, month, e + amount, f), Combined(f, e + amount, month)))
    ensures Answer(d, month, amount, f, e, "2") == Ok((Store(d, month, amount, f), Overwritten(f, amount, month)))
  {
    StoreInt(d, month, amount, f);
    if e + amount >= 0 {
      StoreInt(d, month, e + amount, f);
    }
  }

  /** A non-negative integer amount for a strict month is always stored. */
  lemma StoreInt(d: Dataset, month: string, v: nat, f: Field)
    requires StrictMonth(month)
    ensures AddMonthlyRecord(d, month, VInt(v), f) == Ok(Store(d, month, v, f))
  {
  }

  /** Any other answer ("3", an empty line, anything) closes the dialog and leaves the
      data as it was. */
  lemma DialogCancel(s: State, month: string, amount: nat, f: Field, choice: string)
    requires s.stack != [] && choice != "1" && choice != "2"
    requires ExistingAmount(s.data, month, f).Some?
    ensures var r := DialogStep(s, month, amount, f, choice);
      r.data == s.data && r.stack == s.stack[..|s.stack| - 1] && r.notice == Cancelled(month)
  {
  }

  // ------------------------------------------------------------- menu lemmas

  /** Main menu options: 1 opens the view (or the add menu when data is missing),
      2 the add menu, 3 saves and ends the program, any other number is an invalid
      choice that changes nothing. */
  lemma MainMenuOptions(s: State, n: nat)
    requires s.stack != [] && s.stack[|s.stack| - 1] == MainMenu
    ensures var r := CommandStep(s, Cmd(MenuOption(n)));
      && (n == 1 ==> (r.data == s.data && |r.stack| == |s.stack| + 1
            && r.stack[|s.stack|] == (if Gap(s.data).None? then ViewMenu(Summary) else AddMenu)))
      && (n == 2 ==> r.data == s.data && r.stack == s.stack + [AddMenu])
      && (n == 3 ==> Ended(r) && r.saved == s.data)
      && (n !in {1, 2, 3} ==> r == s.(notice := InvalidChoice))
  {
    var a := MainAction(Cmd(MenuOption(n)), Gap(s.data), GraphsBreak(s.data));
    assert CommandStep(s, Cmd(MenuOption(n))) == Perform(s, a);
  }

  /** At the main menu a `menu` command, such as the one an empty line parses to, is
      an invalid choice. */
  lemma MainMenuBlankLine(s: State, line: string)
    requires s.stack != [] && s.stack[|s.stack| - 1] == MainMenu
    requires forall i :: 0 <= i < |line| ==> IsSpace(line[i])
    ensures Step(s, line) == s.(notice := InvalidInput)
  {
    ParseBlank(Strip(line));
    MainMenuCommand(s, Strip(line));
  }

  lemma MainMenuCommand(s: State, t: string)
    requires s.stack != [] && s.stack[|s.stack| - 1] == MainMenu
    ensures Respond(s, t, Cmd(Menu)) == s.(notice := InvalidInput)
  {
    assert ScreenAction(MainMenu, Cmd(Menu), Gap(s.data), GraphsBreak(s.data)) == Show(InvalidInput);
  }

  /** In the add-data menu a number and a bare `add` fall through every branch: the
      state is unchanged. */
  lemma AddMenuNoOps(s: State, n: nat)
    requires s.stack != [] && s.stack[|s.stack| - 1] == AddMenu
    ensures CommandStep(s, Cmd(MenuOption(n))) == s.(notice := Quiet)
    ensures CommandStep(s, Cmd(Add)) == s.(notice := Quiet)
  {
  }

  /** A command the parser rejects is reported and changes nothing, on every menu. */
  lemma ParseErrorChangesNothing(s: State, code: ErrorCode)
    requires s.stack != [] && !Transient(s.stack[|s.stack| - 1])
    ensures CommandStep(s, Error(code)) == s.(notice := CommandError(code))
  {
    assert ScreenAction(s.stack[|s.stack| - 1], Error(code), Gap(s.data), GraphsBreak(s.data)) == Show(CommandError(code));
  }

  /** With complete data the graph command of the add-data and view-data menus shows
      the graphs and then swallows the next line, whatever it is: the menu is back
      as it was. When drawing the graphs raises, the program stops instead, and the
      file keeps what it held. */
  lemma GraphSwallowsNextLine(s: State, line: string)
    requires s.stack != [] && (s.stack[|s.stack| - 1] == AddMenu || s.stack[|s.stack| - 1].ViewMenu?)
    requires Gap(s.data).None?
    ensures var r := CommandStep(s, Cmd(Graph));
      GraphsBreak(s.data) ==> Ended(r) && r.data == s.data && r.saved == s.saved
    ensures var r := CommandStep(s, Cmd(Graph));
      !GraphsBreak(s.data) ==> r.stack == s.stack + [PressEnter] && r.notice == GraphsShown
    ensures !GraphsBreak(s.data) ==> Step(CommandStep(s, Cmd(Graph)), line) == s.(notice := Quiet)
  {
    GraphOpensWait(s);
    if !GraphsBreak(s.data) {
      WaitSwallows(Push(s, PressEnter, GraphsShown), line);
    }
  }

  lemma GraphOpensWait(s: State)
    requires s.stack != [] && (s.stack[|s.stack| - 1] == AddMenu || s.stack[|s.stack| - 1].ViewMenu?)
    requires Gap(s.data).None?
    ensures CommandStep(s, Cmd(Graph)) == Perform(s, ShowGraphs(GraphsBreak(s.data)))
  {
    var b := GraphsBreak(s.data);
    assert ScreenAction(s.stack[|s.stack| - 1], Cmd(Graph), None, b) == ShowGraphs(b);
  }

  /** A loaded month such as "13/25" is kept by loading, but once it is the last
      record the graphs cannot step past it: with complete data the graph command
      ends the program. */
  lemma GraphCrashesOnBadMonth(s: State)
    requires s.stack != [] && (s.stack[|s.stack| - 1] == AddMenu || s.stack[|s.stack| - 1].ViewMenu?)
    requires Gap(s.data).None?
    requires var m := s.data.records[|s.data.records| - 1].month;
      |m| == 5 && AllDigits(m[..2]) && m[2] == '/' && AllDigits(m[3..]) && !(1 <= DecimalValue(m[..2]) <= 12)
    ensures Ended(CommandStep(s, Cmd(Graph)))
    ensures CommandStep(s, Cmd(Graph)).saved == s.saved
  {
    Dates.ParseMonthOutOfRange(s.data.records[|s.data.records| - 1].month);
    GraphOpensWait(s);
  }

  /** Whatever the line, the wait after the graphs only closes itself. */
  lemma WaitSwallows(s: State, line: string)
    requires s.stack != [] && s.stack[|s.stack| - 1] == PressEnter
    ensures Step(s, line) == Pop(s)
  {
    WaitTakesAnything(s, Strip(line), ParseCommand(Strip(line)));
  }

  lemma WaitTakesAnything(s: State, t: string, p: Parsed)
    requires s.stack != [] && s.stack[|s.stack| - 1] == PressEnter
    ensures Respond(s, t, p) == Pop(s)
  {
  }

  /** With data missing the same command only reports which data is missing and stays
      on the menu. */
  lemma GraphReportsGap(s: State)
    requires s.stack != [] && (s.stack[|s.stack| - 1] == AddMenu || s.stack[|s.stack| - 1].ViewMenu?)
    requires Gap(s.data).Some?
    ensures CommandStep(s, Cmd(Graph)) == s.(notice := MissingData(Gap(s.data).value))
  {
    var g := Gap(s.data);
    assert ScreenAction(s.stack[|s.stack| - 1], Cmd(Graph), g, GraphsBreak(s.data)) == Show(MissingData(g.value));
  }

  /** The view menu's option 2 waits for Enter, with the graphs or with the message
      of the first missing data; only drawing graphs that raise stops the program
      instead. */
  lemma ViewOptionTwoWaits(s: State, page: Page)
    requires s.stack != [] && s.stack[|s.stack| - 1] == ViewMenu(page)
    ensures var r := CommandStep(s, Cmd(MenuOption(2)));
      Gap(s.data).None? && GraphsBreak(s.data) ==> Ended(r) && r.data == s.data && r.saved == s.saved
    ensures var r := CommandStep(s, Cmd(MenuOption(2)));
      !(Gap(s.data).None? && GraphsBreak(s.data)) ==>
        && r.stack == s.stack + [PressEnter] && r.data == s.data
        && r.notice == if Gap(s.data).None? then GraphsShown else MissingData(Gap(s.data).value)
  {
  }

  // ------------------------------------------------------------- invariants

  /** The shape of the handler nesting: the main menu at the bottom and nowhere else,
      a dialog or a wait for Enter only on top. */
  predicate Nested(st: seq<Screen>) {
    st != [] ==>
      && st[0] == MainMenu
      && (forall i :: 0 < i < |st| ==> st[i] != MainMenu)
      && (forall i :: 0 <= i < |st| - 1 ==> !Transient(st[i]))
  }

  /** What holds between any two lines whatever the data: the handlers are properly
      nested and the file holds the current data (every change is saved at once). */
  predicate Shape(s: State) {
    Nested(s.stack) && s.saved == s.data
  }

  /** A session on any loaded data starts in shape. */
  lemma StartShape(d: Dataset)
    ensures Shape(Start(d)) && !Ended(Start(d)) && Start(d).stack == [MainMenu]
  {
  }

  lemma NestedPush(st: seq<Screen>, sc: Screen)
    requires Nested(st) && st != [] && !Transient(st[|st| - 1]) && sc != MainMenu
    ensures Nested(st + [sc])
  {
  }

  lemma NestedPop(st: seq<Screen>)
    requires Nested(st) && st != [] && st[|st| - 1] != MainMenu
    ensures |st| > 1 && Nested(st[..|st| - 1])
  {
  }

  lemma NestedFlip(st: seq<Screen>, page: Page)
    requires Nested(st) && st != [] && st[|st| - 1].ViewMenu?
    ensures Nested(st[|st| - 1 := ViewMenu(page)])
  {
  }

  /** An allowed action keeps the session in shape. */
  lemma PerformShape(s: State, a: Action)
    requires Shape(s) && s.stack != [] && !Transient(s.stack[|s.stack| - 1])
    requires Allowed(s.stack[|s.stack| - 1], a)
    ensures Shape(Perform(s, a))
  {
    match a
    case Open(sc, n) => NestedPush(s.stack, sc);
    case Close => NestedPop(s.stack);
    case Flip(page) => NestedFlip(s.stack, page);
    case Enter(month, amount, f) => NestedPush(s.stack, DuplicateDialog(month, amount, f));
    case _ =>
  }

  /** Every line keeps the session in shape, on any data. */
  lemma StepKeepsShape(s: State, line: string)
    requires Shape(s)
    ensures Shape(Step(s, line))
  {
    RespondShape(s, Strip(line), ParseCommand(Strip(line)));
  }

  lemma RespondShape(s: State, t: string, p: Parsed)
    requires Shape(s)
    ensures Shape(Respond(s, t, p))
  {
    if s.stack != [] {
      var top := s.stack[|s.stack| - 1];
      if top.DuplicateDialog? {
        DialogRespondShape(s, t, p);
      } else if top.PressEnter? {
        WaitRespondShape(s, t, p);
      } else {
        MenuRespondShape(s, t, p);
      }
    }
  }

  lemma DialogRespondShape(s: State, t: string, p: Parsed)
    requires Shape(s) && s.stack != [] && s.stack[|s.stack| - 1].DuplicateDialog?
    ensures Shape(Respond(s, t, p))
  {
    var top := s.stack[|s.stack| - 1];
    NestedPop(s.stack);
    DialogShape(s, top.month, top.amount, top.field, t);
    assert Respond(s, t, p) == DialogStep(s, top.month, top.amount, top.field, t);
  }

  /** The dialog closes onto the screen below it and saves whatever it changes. */
  lemma DialogShape(s: State, month: string, amount: nat, f: Field, choice: string)
    requires s.stack != [] && Nested(s.stack[..|s.stack| - 1]) && s.saved == s.data
    ensures Shape(DialogStep(s, month, amount, f, choice))
  {
  }

  lemma WaitRespondShape(s: State, t: string, p: Parsed)
    requires Shape(s) && s.stack != [] && s.stack[|s.stack| - 1] == PressEnter
    ensures Shape(Respond(s, t, p))
  {
    assert Respond(s, t, p) == Pop(s);
    NestedPop(s.stack);
  }

  lemma MenuRespondShape(s: State, t: string, p: Parsed)
    requires Shape(s) && s.stack != [] && !Transient(s.stack[|s.stack| - 1])
    ensures Shape(Respond(s, t, p))
  {
    var a := ScreenAction(s.stack[|s.stack| - 1], p, Gap(s.data), GraphsBreak(s.data));
    PerformShape(s, a);
    MenuResponds(s, t, p);
  }

  /** A menu on top acts on the parsed line and ignores the raw text. */
  lemma MenuResponds(s: State, t: string, p: Parsed)
    requires s.stack != [] && !Transient(s.stack[|s.stack| - 1])
    ensures Respond(s, t, p) == Perform(s, ScreenAction(s.stack[|s.stack| - 1], p, Gap(s.data), GraphsBreak(s.data)))
  {
  }

  /** Over any sequence of lines from a session in shape. */
  lemma {:induction false} RunKeepsShape(s: State, lines: seq<string>)
    requires Shape(s)
    ensures Shape(Run(s, lines))
    decreases |lines|
  {
    if lines != [] {
      StepKeepsShape(s, lines[0]);
      RunKeepsShape(Step(s, lines[0]), lines[1..]);
    }
  }

  /** Whatever is typed, the file always holds what the session holds. */
  lemma SessionSaves(d: Dataset, lines: seq<string>)
    ensures Run(Start(d), lines).saved == Run(Start(d), lines).data
  {
    RunKeepsShape(Start(d), lines);
  }

  /** Once the program has ended nothing changes, and it ends leaving the data as it
      was and the file holding it: "save and exit" writes it, and graphs that raise
      stop the program after the last save. */
  predicate CleanEnd(s: State, r: State) {
    && (Ended(s) ==> r == s)
    && (!Ended(s) && Ended(r) ==> r.data == s.data && r.saved == s.data)
  }

  /** No line typed after the end changes anything, and when the session ends the
      file holds the data it ends with. */
  lemma StepAfterEnd(s: State, line: string)
    requires Shape(s)
    ensures CleanEnd(s, Step(s, line))
  {
    RespondAfterEnd(s, Strip(line), ParseCommand(Strip(line)));
  }

  lemma RespondAfterEnd(s: State, t: string, p: Parsed)
    requires Shape(s)
    ensures CleanEnd(s, Respond(s, t, p))
  {
    if s.stack != [] {
      var top := s.stack[|s.stack| - 1];
      if top.DuplicateDialog? {
        DialogRespondClean(s, t, p);
      } else if top.PressEnter? {
        WaitRespondClean(s, t, p);
      } else {
        MenuRespondClean(s, t, p);
      }
    }
  }

  lemma DialogRespondClean(s: State, t: string, p: Parsed)
    requires Shape(s) && s.stack != [] && s.stack[|s.stack| - 1].DuplicateDialog?
    ensures CleanEnd(s, Respond(s, t, p))
  {
    NestedPop(s.stack);
    DialogStays(s, t, p);
  }

  /** The dialog hands control back to the screen below it. */
  lemma DialogStays(s: State, t: string, p: Parsed)
    requires |s.stack| > 1 && s.stack[|s.stack| - 1].DuplicateDialog?
    ensures !Ended(Respond(s, t, p))
  {
    var top := s.stack[|s.stack| - 1];
    var r := DialogStep(s, top.month, top.amount, top.field, t);
    assert Respond(s, t, p) == r;
  }

  lemma WaitRespondClean(s: State, t: string, p: Parsed)
    requires Shape(s) && s.stack != [] && s.stack[|s.stack| - 1] == PressEnter
    ensures CleanEnd(s, Respond(s, t, p))
  {
    NestedPop(s.stack);
    assert Respond(s, t, p) == Pop(s);
  }

  lemma MenuRespondClean(s: State, t: string, p: Parsed)
    requires Shape(s) && s.stack != [] && !Transient(s.stack[|s.stack| - 1])
    ensures CleanEnd(s, Respond(s, t, p))
  {
    var a := ScreenAction(s.stack[|s.stack| - 1], p, Gap(s.data), GraphsBreak(s.data));
    PerformClean(s, a);
    MenuResponds(s, t, p);
  }

  lemma PerformClean(s: State, a: Action)
    requires Shape(s) && s.stack != [] && !Transient(s.stack[|s.stack| - 1])
    requires Allowed(s.stack[|s.stack| - 1], a)
    ensures CleanEnd(s, Perform(s, a))
  {
    PerformEnds(s, a);
  }

  lemma PerformEnds(s: State, a: Action)
    requires Shape(s) && s.stack != [] && !Transient(s.stack[|s.stack| - 1])
    requires Allowed(s.stack[|s.stack| - 1], a)
    ensures Ended(Perform(s, a)) ==> a.Quit? || a.Crash?
  {
    if a.Close? {
      NestedPop(s.stack);
    }
  }

  /** Canonical data (strict months in date order) stays canonical under every
      action. */
  lemma PerformKeepsCanonical(s: State, a: Action)
    requires Canonical(s.data) && s.stack != []
    ensures Canonical(Perform(s, a).data)
  {
    match a
    case Enter(month, amount, f) => RecordKeepsCanonical(s, month, amount, f);
    case SetBank(amount) => assert Perform(s, a).data.records == s.data.records;
    case _ =>
  }

  lemma RecordKeepsCanonical(s: State, month: string, amount: nat, f: Field)
    requires Canonical(s.data)
    ensures Canonical(RecordStep(s, month, amount, f).data)
  {
    if AddMonthlyRecord(s.data, month, VInt(amount), f).Ok? {
      AddKeepsCanonical(s.data, month, VInt(amount), f);
    }
  }

  lemma DialogKeepsCanonical(s: State, month: string, amount: nat, f: Field, choice: string)
    requires Canonical(s.data) && s.stack != []
    ensures Canonical(DialogStep(s, month, amount, f, choice).data)
  {
    if Resolve(s.data, month, amount, f, choice).Ok? {
      ResolveKeepsCanonical(s.data, month, amount, f, choice);
    }
  }

  lemma ResolveKeepsCanonical(d: Dataset, month: string, amount: nat, f: Field, choice: string)
    requires Canonical(d) && Resolve(d, month, amount, f, choice).Ok?
    ensures Canonical(Resolve(d, month, amount, f, choice).value.0)
  {
    var e := ExistingAmount(d, month, f).value;
    assert Resolve(d, month, amount, f, choice) == Answer(d, month, amount, f, e, choice);
    AnswerKeepsCanonical(d, month, amount, f, e, choice);
  }

  lemma AnswerKeepsCanonical(d: Dataset, month: string, amount: nat, f: Field, e: int, choice: string)
    requires Canonical(d) && Answer(d, month, amount, f, e, choice).Ok?
    ensures Canonical(Answer(d, month, amount, f, e, choice).value.0)
  {
    if choice == "1" {
      AddKeepsCanonical(d, month, VInt(e + amount), f);
    } else if choice == "2" {
      AddKeepsCanonical(d, month, VInt(amount), f);
    }
  }

  /** Whatever is typed, canonical data stays canonical: every month a session stores
      is a strict "MM/YY", and the records stay in date order without repeats. */
  lemma StepKeepsCanonical(s: State, line: string)
    requires Canonical(s.data)
    ensures Canonical(Step(s, line).data)
  {
    RespondKeepsCanonical(s, Strip(line), ParseCommand(Strip(line)));
  }

  lemma RespondKeepsCanonical(s: State, t: string, p: Parsed)
    requires Canonical(s.data)
    ensures Canonical(Respond(s, t, p).data)
  {
    if s.stack != [] {
      var top := s.stack[|s.stack| - 1];
      if top.DuplicateDialog? {
        DialogKeepsCanonical(s, top.month, top.amount, top.field, t);
      } else if !top.PressEnter? {
        PerformKeepsCanonical(s, ScreenAction(top, p, Gap(s.data), GraphsBreak(s.data)));
      }
    }
  }

  lemma {:induction false} RunKeepsCanonical(s: State, lines: seq<string>)
    requires Canonical(s.data)
    ensures Canonical(Run(s, lines).data)
    decreases |lines|
  {
    if lines != [] {
      StepKeepsCanonical(s, lines[0]);
      RunKeepsCanonical(Step(s, lines[0]), lines[1..]);
    }
  }

  /** Whatever is typed, normalised data stays normalised: every amount a session
      stores is an integer. */
  lemma {:induction false} RunKeepsNormalized(s: State, lines: seq<string>)
    requires Normalized(s.data)
    ensures Normalized(Run(s, lines).data)
    decreases |lines|
  {
    if lines != [] {
      StepKeepsNormalized(s, lines[0]);
      RunKeepsNormalized(Step(s, lines[0]), lines[1..]);
    }
  }

  lemma StepKeepsNormalized(s: State, line: string)
    requires Normalized(s.data)
    ensures Normalized(Step(s, line).data)
  {
    RespondKeepsNormalized(s, Strip(line), ParseCommand(Strip(line)));
  }

  lemma RespondKeepsNormalized(s: State, t: string, p: Parsed)
    requires Normalized(s.data)
    ensures Normalized(Respond(s, t, p).data)
  {
    if s.stack != [] {
      var top := s.stack[|s.stack| - 1];
      if top.DuplicateDialog? {
        var r := DialogStep(s, top.month, top.amount, top.field, t);
        assert Respond(s, t, p) == r;
        DialogKeepsNormalized(s, top.month, top.amount, top.field, t);
      } else if top.PressEnter? {
        assert Respond(s, t, p) == Pop(s);
      } else {
        var a := ScreenAction(top, p, Gap(s.data), GraphsBreak(s.data));
        MenuResponds(s, t, p);
        PerformKeepsNormalized(s, a);
      }
    }
  }

  lemma PerformKeepsNormalized(s: State, a: Action)
    requires Normalized(s.data) && s.stack != []
    ensures Normalized(Perform(s, a).data)
  {
    match a
    case Enter(month, amount, f) => RecordKeepsNormalized(s, month, amount, f);
    case SetBank(amount) => assert Perform(s, a).data.records == s.data.records;
    case _ =>
  }

  lemma RecordKeepsNormalized(s: State, month: string, amount: nat, f: Field)
    requires Normalized(s.data)
    ensures Normalized(RecordStep(s, month, amount, f).data)
  {
    if AddMonthlyRecord(s.data, month, VInt(amount), f).Ok? {
      AddKeepsNormalized(s.data, month, VInt(amount), f);
    }
  }

  lemma DialogKeepsNormalized(s: State, month: string, amount: nat, f: Field, choice: string)
    requires Normalized(s.data) && s.stack != []
    ensures Normalized(DialogStep(s, month, amount, f, choice).data)
  {
    if Resolve(s.data, month, amount, f, choice).Ok? {
      var e := ExistingAmount(s.data, month, f).value;
      assert Resolve(s.data, month, amount, f, choice) == Answer(s.data, month, amount, f, e, choice);
      AnswerKeepsNormalized(s.data, month, amount, f, e, choice);
    }
  }

  lemma AnswerKeepsNormalized(d: Dataset, month: string, amount: nat, f: Field, e: int, choice: string)
    requires Normalized(d) && Answer(d, month, amount, f, e, choice).Ok?
    ensures Normalized(Answer(d, month, amount, f, e, choice).value.0)
  {
    if choice == "1" {
      AddKeepsNormalized(d, month, VInt(e + amount), f);
    } else if choice == "2" {
      AddKeepsNormalized(d, month, VInt(amount), f);
    }
  }

  /** Whatever is typed, a session on loaded data leaves a file that loads back as
      exactly the data the session holds. */
  lemma SessionFileLoadsBack(file: Option<RawData>, lines: seq<string>)
    requires LoadData(file).Loaded?
    ensures var r := Run(Start(LoadData(file).data), lines);
      LoadData(Some(SaveData(r.saved))) == Loaded(r.data)
  {
    var d := LoadData(file).data;
    RunKeepsNormalized(Start(d), lines);
    SessionSaves(d, lines);
    LoadSaveRoundTrip(Run(Start(d), lines).data);
  }

}

=== FILE: sorting.dfy ===
/** Python's `sorted(xs, key=f)` for keys that are `(year, month)` pairs: a stable
    sort by key, written as insertion sort. The key is a parameter so that the order
    facts hold whatever the key function computes. */
module Sorting {

  /** A month as `(year, month)`, the order in which records are kept. */
  datatype MonthKey = MonthKey(year: int, month: int)

  /** Lexicographic order on `(year, month)`, as Python compares tuples. */
  predicate KeyLe(a: MonthKey, b: MonthKey) {
    a.year < b.year || (a.year == b.year && a.month <= b.month)
  }

  predicate Sorted<T>(s: seq<T>, key: T -> MonthKey) {
    forall i, j :: 0 <= i < j < |s| ==> KeyLe(key(s[i]), key(s[j]))
  }

  /** Strictly ascending keys: sorted, and no key occurs twice. */
  predicate Increasing<T>(s: seq<T>, key: T -> MonthKey) {
    forall i, j :: 0 <= i < j < |s| ==> KeyLe(key(s[i]), key(s[j])) && key(s[i]) != key(s[j])
  }

  predicate DistinctKeys<T>(s: seq<T>, key: T -> MonthKey) {
    forall i, j :: 0 <= i < j < |s| ==> key(s[i]) != key(s[j])
  }

  /** The elements of `s` whose key is `k`, in their order in `s`. */
  function WithKey<T>(s: seq<T>, key: T -> MonthKey, k: MonthKey): seq<T> {
    if s == [] then []
    else (if key(s[0]) == k then [s[0]] else []) + WithKey(s[1..], key, k)
  }

  /** Inserts `x` in front of the first element whose key is not below its own. */
  function Insert<T>(x: T, t: seq<T>, key: T -> MonthKey): (r: seq<T>)
    ensures multiset(r) == multiset(t) + multiset{x}
    ensures Sorted(t, key) ==> Sorted(r, key)
  {
    if t == [] || KeyLe(key(x), key(t[0])) then
      if Sorted(t, key) then
        SortedCons(x, t, key);
        [x] + t
      else
        [x] + t
    else
      var rest := Insert(x, t[1..], key);
      assert t == [t[0]] + t[1..];
      if Sorted(t, key) then
        SortedTail(t, key);
        BelowAll(t[0], x, rest, t[1..], key);
        SortedCons(t[0], rest, key);
        [t[0]] + rest
      else
        [t[0]] + rest
  }

  /** A sequence stays sorted when an element no greater than all of it goes in front. */
  lemma SortedCons<T>(x: T, t: seq<T>, key: T -> MonthKey)
    requires Sorted(t, key)
    requires forall k :: 0 <= k < |t| ==> KeyLe(key(x), key(t[k]))
    ensures Sorted([x] + t, key)
  {
    var r := [x] + t;
    forall i, j | 0 <= i < j < |r|
      ensures KeyLe(key(r[i]), key(r[j]))
    {
      assert r[j] == t[j - 1];
      if i > 0 {
        assert r[i] == t[i - 1];
      }
    }
  }

  /** The tail of a sorted sequence is sorted and bounded below by the head. */
  lemma SortedTail<T>(t: seq<T>, key: T -> MonthKey)
    requires Sorted(t, key) && t != []
    ensures Sorted(t[1..], key)
    ensures forall k :: 0 <= k < |t[1..]| ==> KeyLe(key(t[0]), key(t[1..][k]))
  {
    forall i, j | 0 <= i < j < |t[1..]|
      ensures KeyLe(key(t[1..][i]), key(t[1..][j]))
    {
      assert t[1..][i] == t[i + 1] && t[1..][j] == t[j + 1];
    }
    forall k | 0 <= k < |t[1..]|
      ensures KeyLe(key(t[0]), key(t[1..][k]))
    {
      assert t[1..][k] == t[k + 1];
    }
  }

  /** A key no greater than `x` and than every element of `u` is no greater than any
      element of a permutation of `u` with `x` added. */
  lemma BelowAll<T>(h: T, x: T, rest: seq<T>, u: seq<T>, key: T -> MonthKey)
    requires multiset(rest) == multiset(u) + multiset{x}
    requires !KeyLe(key(x), key(h))
    requires forall k :: 0 <= k < |u| ==> KeyLe(key(h), key(u[k]))
    ensures forall k :: 0 <= k < |rest| ==> KeyLe(key(h), key(rest[k]))
  {
    forall k | 0 <= k < |rest|
      ensures KeyLe(key(h), key(rest[k]))
    {
      var y := rest[k];
      assert y in multiset(rest);
      if y != x {
        assert y in multiset(u);
        var m :| 0 <= m < |u| && u[m] == y;
      }
    }
  }

  /** `sorted(s, key=key)`. */
  function Sort<T>(s: seq<T>, key: T -> MonthKey): (r: seq<T>)
    ensures Sorted(r, key)
    ensures multiset(r) == multiset(s)
  {
    if s == [] then []
    else
      assert s == [s[0]] + s[1..];
      Insert(s[0], Sort(s[1..], key), key)
  }

  lemma WithKeyCons<T>(y: T, u: seq<T>, key: T -> MonthKey, k: MonthKey)
    ensures WithKey([y] + u, key, k) == (if key(y) == k then [y] else []) + WithKey(u, key, k)
  {
    assert ([y] + u)[1..] == u;
  }

  /** Inserting `x` adds it at the front of the elements that share its key. */
  lemma {:induction false} InsertWithKey<T>(x: T, t: seq<T>, key: T -> MonthKey, k: MonthKey)
    ensures WithKey(Insert(x, t, key), key, k) == (if key(x) == k then [x] else []) + WithKey(t, key, k)
    decreases |t|
  {
    if t == [] || KeyLe(key(x), key(t[0])) {
      WithKeyCons(x, t, key, k);
    } else {
      var y, u := t[0], t[1..];
      assert key(y) != key(x);
      InsertWithKey(x, u, key, k);
      WithKeyCons(y, Insert(x, u, key), key, k);
      WithKeyCons(y, u, key, k);
      assert [y] + u == t;
    }
  }

  /** Sorting is stable: the elements sharing a key keep their relative order. */
  lemma {:induction false} SortStable<T>(s: seq<T>, key: T -> MonthKey, k: MonthKey)
    ensures WithKey(Sort(s, key), key, k) == WithKey(s, key, k)
    decreases |s|
  {
    if s != [] {
      SortStable(s[1..], key, k);
      InsertWithKey(s[0], Sort(s[1..], key), key, k);
    }
  }

  /** Sorting a sequence that is already in order leaves it as it is. */
  lemma {:induction false} SortSortedIdentity<T>(s: seq<T>, key: T -> MonthKey)
    requires Sorted(s, key)
    ensures Sort(s, key) == s
    decreases |s|
  {
    if s != [] {
      SortedTail(s, key);
      SortSortedIdentity(s[1..], key);
      if |s| > 1 {
        assert KeyLe(key(s[0]), key(s[1]));
      }
      assert [s[0]] + s[1..] == s;
    }
  }

  /** Inserting an element whose key is new into a strictly ascending sequence keeps
      it strictly ascending. */
  lemma {:induction false} InsertIncreasing<T>(x: T, t: seq<T>, key: T -> MonthKey)
    requires Increasing(t, key)
    requires forall k :: 0 <= k < |t| ==> key(t[k]) != key(x)
    ensures Increasing(Insert(x, t, key), key)
    decreases |t|
  {
    if t == [] || KeyLe(key(x), key(t[0])) {
      forall k | 0 <= k < |t|
        ensures KeyLe(key(x), key(t[k])) && key(x) != key(t[k])
      {
        if k > 0 {
          assert KeyLe(key(t[0]), key(t[k]));
        }
      }
      IncreasingCons(x, t, key);
    } else {
      var u := t[1..];
      assert Increasing(u, key) by {
        forall i, j | 0 <= i < j < |u|
          ensures KeyLe(key(u[i]), key(u[j])) && key(u[i]) != key(u[j])
        {
          assert u[i] == t[i + 1] && u[j] == t[j + 1];
        }
      }
      forall k | 0 <= k < |u|
        ensures key(u[k]) != key(x)
      {
        assert u[k] == t[k + 1];
      }
      InsertIncreasing(x, u, key);
      var rest := Insert(x, u, key);
      forall k | 0 <= k < |rest|
        ensures KeyLe(key(t[0]), key(rest[k])) && key(t[0]) != key(rest[k])
      {
        var y := rest[k];
        assert y in multiset(rest);
        if y != x {
          assert y in multiset(u);
          var m :| 0 <= m < |u| && u[m] == y;
          assert u[m] == t[m + 1];
        }
      }
      IncreasingCons(t[0], rest, key);
    }
  }

  /** A strictly ascending sequence stays so when an element strictly below all of it
      goes in front. */
  lemma IncreasingCons<T>(x: T, t: seq<T>, key: T -> MonthKey)
    requires Increasing(t, key)
    requires forall k :: 0 <= k < |t| ==> KeyLe(key(x), key(t[k])) && key(x) != key(t[k])
    ensures Increasing([x] + t, key)
  {
    var r := [x] + t;
    forall i, j | 0 <= i < j < |r|
      ensures KeyLe(key(r[i]), key(r[j])) && key(r[i]) != key(r[j])
    {
      assert r[j] == t[j - 1];
      if i > 0 {
        assert r[i] == t[i - 1];
      }
    }
  }

  /** Sorting elements whose keys are pairwise distinct gives strictly ascending keys. */
  lemma {:induction false} SortIncreasing<T>(s: seq<T>, key: T -> MonthKey)
    requires DistinctKeys(s, key)
    ensures Increasing(Sort(s, key), key)
    decreases |s|
  {
    if s != [] {
      var u := s[1..];
      assert DistinctKeys(u, key) by {
        forall i, j | 0 <= i < j < |u|
          ensures key(u[i]) != key(u[j])
        {
          assert u[i] == s[i + 1] && u[j] == s[j + 1];
        }
      }
      SortIncreasing(u, key);
      var t := Sort(u, key);
      forall k | 0 <= k < |t|
        ensures key(t[k]) != key(s[0])
      {
        assert t[k] in multiset(t);
        assert t[k] in multiset(u);
        var m :| 0 <= m < |u| && u[m] == t[k];
        assert u[m] == s[m + 1];
      }
      InsertIncreasing(s[0], t, key);
    }
  }
}

=== FILE: text.dfy ===
/** The Python string built-ins the budget tracker leans on, restricted to ASCII text:
    `str.isspace`, `str.strip`, `' '.join(s.split())`, `str.lower`, `str.split` on one
    separator, `int(str)` and `str(int)`. */
module Text {
  import opened Results

  /** `str.isspace()` on ASCII: tab, line feed, vertical tab, form feed, carriage
      return, the separators 0x1C-0x1F, and space. */
  predicate IsSpace(c: char) {
    var n := c as int;
    (9 <= n <= 13) || (28 <= n <= 32)
  }

  predicate IsDigit(c: char) {
    '0' <= c <= '9'
  }

  /** Characters that `\w` matches in an ASCII regular expression. */
  predicate IsWordChar(c: char) {
    IsDigit(c) || ('a' <= c <= 'z') || ('A' <= c <= 'Z') || c == '_'
  }

  predicate AllDigits(s: string) {
    forall i :: 0 <= i < |s| ==> IsDigit(s[i])
  }

  predicate NoSpace(s: string) {
    forall i :: 0 <= i < |s| ==> !IsSpace(s[i])
  }

  function LowerChar(c: char): char {
    if 'A' <= c <= 'Z' then (c as int + 32) as char else c
  }

  /** `str.lower()` on ASCII. */
  function Lower(s: string): (r: string)
    ensures |r| == |s| && forall i :: 0 <= i < |s| ==> r[i] == LowerChar(s[i])
  {
    seq(|s|, i requires 0 <= i < |s| => LowerChar(s[i]))
  }

  /** `s.replace(c, "")`. */
  function Remove(s: string, c: char): (r: string)
    ensures c !in r
    ensures |r| <= |s|
  {
    if s == [] then []
    else if s[0] == c then Remove(s[1..], c)
    else [s[0]] + Remove(s[1..], c)
  }

  // ---------------------------------------------------------------- stripping

  /** `s.lstrip()`: the suffix left after the leading whitespace run. */
  function TrimLeft(s: string): (r: string)
    ensures |r| <= |s| && r == s[|s| - |r|..]
    ensures r == [] || !IsSpace(r[0])
    ensures forall i :: 0 <= i < |s| - |r| ==> IsSpace(s[i])
    ensures s != [] && IsSpace(s[0]) ==> |r| < |s|
  {
    if s != [] && IsSpace(s[0]) then TrimLeft(s[1..]) else s
  }

  /** `s.rstrip()`: the prefix left before the trailing whitespace run. */
  function TrimRight(s: string): (r: string)
    ensures |r| <= |s| && r == s[..|r|]
    ensures r == [] || !IsSpace(r[|r| - 1])
    ensures forall i :: |r| <= i < |s| ==> IsSpace(s[i])
  {
    if s != [] && IsSpace(s[|s| - 1]) then TrimRight(s[..|s| - 1]) else s
  }

  /** `s.strip()`. */
  function Strip(s: string): (r: string)
    ensures |r| <= |s|
    ensures r == [] || (!IsSpace(r[0]) && !IsSpace(r[|r| - 1]))
  {
    TrimRight(TrimLeft(s))
  }

  lemma StripNoSpace(s: string)
    requires NoSpace(s)
    ensures Strip(s) == s
  {
  }

  /** `strip` leaves alone a string that neither starts nor ends with whitespace. */
  lemma StripTrimmed(s: string)
    requires s == [] || (!IsSpace(s[0]) && !IsSpace(s[|s| - 1]))
    ensures Strip(s) == s
  {
    if s != [] {
      assert TrimLeft(s) == s;
    }
  }

  // ------------------------------------------------------- whitespace collapse

  /** The longest prefix of `s` that holds no whitespace. */
  function WordPrefix(s: string): (w: string)
    ensures |w| <= |s| && w == s[..|w|] && NoSpace(w)
    ensures |w| < |s| ==> IsSpace(s[|w|])
    ensures s != [] && !IsSpace(s[0]) ==> |w| >= 1
  {
    if s == [] || IsSpace(s[0]) then [] else [s[0]] + WordPrefix(s[1..])
  }

  /** The shape `' '.join(line.split())` leaves a line in: every whitespace character
      is a single space with a non-space on both sides. */
  ghost predicate Collapsed(s: string) {
    && (s == [] || (!IsSpace(s[0]) && !IsSpace(s[|s| - 1])))
    && (forall i :: 0 <= i < |s| && IsSpace(s[i]) ==> s[i] == ' ')
    && (forall i, j :: 0 <= i < j < |s| && j == i + 1 ==> s[i] != ' ' || s[j] != ' ')
  }

  /** `' '.join(line.split())`: split on whitespace runs, drop empty words, rejoin
      with single spaces. */
  function Collapse(s: string): (r: string)
    ensures |r| <= |s|
    ensures s != [] && IsSpace(s[0]) ==> |r| < |s|
    ensures Collapsed(r)
    decreases |s|
  {
    var t := TrimLeft(s);
    if t == [] then []
    else
      var w := WordPrefix(t);
      var rest := Collapse(t[|w|..]);
      if rest == [] then
        CollapsedWord(w);
        w
      else
        assert |w| < |t| && IsSpace(t[|w|]);
        assert |rest| < |t| - |w|;
        JoinWords(w, rest);
        w + " " + rest
  }

  lemma CollapsedWord(w: string)
    requires w != [] && NoSpace(w)
    ensures Collapsed(w)
  {
  }

  lemma JoinWords(w: string, rest: string)
    requires w != [] && NoSpace(w) && rest != [] && Collapsed(rest)
    ensures Collapsed(w + " " + rest)
  {
    var r := w + " " + rest;
    assert !IsSpace(rest[0]);
    assert forall k :: 0 <= k < |w| ==> r[k] == w[k];
    forall i | 0 <= i < |r| && IsSpace(r[i])
      ensures r[i] == ' ' && 0 < i < |r| - 1 && r[i + 1] != ' '
    {
      if i == |w| {
        assert r[i + 1] == rest[0];
      } else {
        assert r[i] == rest[i - |w| - 1];
        assert i < |r| - 1 && r[i + 1] == rest[i - |w|];
      }
    }
  }

  /** A single leading space does not change what a line collapses to. */
  lemma CollapseSkipSpace(u: string)
    requires u != [] && !IsSpace(u[0])
    ensures Collapse(" " + u) == Collapse(u)
  {
    var s := " " + u;
    assert s[1..] == u && IsSpace(s[0]);
    assert TrimLeft(s) == u;
    CollapseSameTrim(s, u);
  }

  /** Collapsing looks only at what is left after the leading whitespace. */
  lemma CollapseSameTrim(a: string, b: string)
    requires TrimLeft(a) == TrimLeft(b)
    ensures Collapse(a) == Collapse(b)
  {
  }

  /** A line collapses to nothing exactly when it is all whitespace. */
  lemma CollapseEmpty(s: string)
    ensures Collapse(s) == [] <==> forall i :: 0 <= i < |s| ==> IsSpace(s[i])
  {
    var t := TrimLeft(s);
    if t != [] {
      assert !IsSpace(s[|s| - |t|]);
    }
  }

  /** Collapsing a collapsed line changes nothing. */
  lemma {:induction false} CollapseCollapsed(s: string)
    requires Collapsed(s)
    ensures Collapse(s) == s
    decreases |s|
  {
    if s != [] {
      var w := WordPrefix(s);
      CollapseWord(s);
      if |w| < |s| {
        var u := CollapsedAfterWord(s, |w|);
        CollapseCollapsed(u);
        CollapseSkipSpace(u);
      } else {
        assert s[|w|..] == [];
      }
    }
  }

  /** A collapsed line cut at a whitespace character `k` is the text before it, one
      space, and a collapsed remainder that starts with a non-space. */
  lemma CollapsedAfterWord(s: string, k: nat) returns (u: string)
    requires Collapsed(s) && k < |s| && IsSpace(s[k])
    ensures u == s[k + 1..] && u != [] && !IsSpace(u[0]) && Collapsed(u)
    ensures s[k..] == " " + u
    ensures s == s[..k] + " " + u
  {
    SpaceAfterWord(s, k);
    u := s[k + 1..];
    CollapsedSuffix(s, k + 1);
    SplitAt(s, k);
    assert [s[k]] == " ";
  }

  /** A sequence is the part before `k`, the element at `k` and the part after. */
  lemma SplitAt<T>(s: seq<T>, k: nat)
    requires k < |s|
    ensures s[k..] == [s[k]] + s[k + 1..]
    ensures s == s[..k] + [s[k]] + s[k + 1..]
  {
  }

  /** In a collapsed line the whitespace after a word is one space followed by a
      non-space. */
  lemma SpaceAfterWord(s: string, k: nat)
    requires Collapsed(s) && k < |s| && IsSpace(s[k])
    ensures s[k] == ' ' && k + 1 < |s| && s[k + 1] != ' ' && !IsSpace(s[k + 1])
  {
  }

  /** One step of `Collapse` on a line that starts with a word. */
  lemma CollapseWord(s: string)
    requires s != [] && !IsSpace(s[0])
    ensures var w := WordPrefix(s);
      Collapse(s) == (if Collapse(s[|w|..]) == [] then w else w + " " + Collapse(s[|w|..]))
  {
    assert TrimLeft(s) == s;
  }

  lemma CollapsedSuffix(s: string, k: nat)
    requires Collapsed(s) && k <= |s|
    requires k == |s| || !IsSpace(s[k])
    ensures Collapsed(s[k..])
  {
    var u := s[k..];
    forall i | 0 <= i < |u| && IsSpace(u[i])
      ensures u[i] == ' ' && 0 < i < |u| - 1 && u[i + 1] != ' '
    {
      assert u[i] == s[k + i];
      if k + i + 1 < |s| {
        assert u[i + 1] == s[k + i + 1];
      }
    }
  }

  // -------------------------------------------------------- searching / split

  /** The index of the first `c` in `s`, if any. */
  function IndexOf(s: string, c: char): (r: Option<nat>)
    ensures r.Some? ==> r.value < |s| && s[r.value] == c && c !in s[..r.value]
    ensures r.None? ==> c !in s
  {
    if s == [] then None
    else if s[0] == c then Some(0)
    else
      match IndexOf(s[1..], c)
      case None => None
      case Some(i) =>
        assert s[..i + 1] == [s[0]] + s[1..][..i];
        Some(i + 1)
  }

  /** `IndexOf` finds the first occurrence. */
  lemma IndexOfFirst(s: string, c: char, p: nat)
    requires p < |s| && s[p] == c && c !in s[..p]
    ensures IndexOf(s, c) == Some(p)
  {
    assert c in s;
  }

  /** Number of occurrences of `c` in `s`; `s.split(c)` has one part more. */
  function Count(s: string, c: char): nat {
    if s == [] then 0 else (if s[0] == c then 1 else 0) + Count(s[1..], c)
  }

  lemma {:induction false} CountZero(s: string, c: char)
    ensures Count(s, c) == 0 <==> c !in s
  {
    if s != [] {
      CountZero(s[1..], c);
      assert s == [s[0]] + s[1..];
    }
  }

  /** Occurrences add up over a concatenation. */
  lemma {:induction false} CountConcat(a: string, b: string, c: char)
    ensures Count(a + b, c) == Count(a, c) + Count(b, c)
    decreases |a|
  {
    if a == [] {
      assert a + b == b;
    } else {
      assert (a + b)[1..] == a[1..] + b;
      CountConcat(a[1..], b, c);
    }
  }

  /** A character present exactly once occurs once. */
  lemma {:induction false} CountSingle(s: string, c: char, p: nat)
    requires p < |s| && s[p] == c && c !in s[..p] && c !in s[p + 1..]
    ensures Count(s, c) == 1
    decreases p
  {
    if p == 0 {
      CountZero(s[1..], c);
    } else {
      assert s[0] == s[..p][0];
      assert s[1..][..p - 1] == s[..p][1..];
      assert s[1..][p..] == s[p + 1..];
      CountSingle(s[1..], c, p - 1);
    }
  }

  /** `s.split(c)[0]`: the text before the first separator. */
  function Before(s: string, c: char): string {
    match IndexOf(s, c)
    case None => s
    case Some(i) => s[..i]
  }

  /** The text after the first separator (empty when there is none). */
  function After(s: string, c: char): string {
    match IndexOf(s, c)
    case None => []
    case Some(i) => s[i + 1..]
  }

  /** With exactly one separator at `p`, `s.split(c)` is the two pieces around it. */
  lemma SeparatorAt(s: string, c: char, p: nat)
    requires p < |s| && s[p] == c && c !in s[..p] && c !in s[p + 1..]
    ensures Count(s, c) == 1 && Before(s, c) == s[..p] && After(s, c) == s[p + 1..]
  {
    CountSingle(s, c, p);
    IndexOfFirst(s, c, p);
  }

  // ------------------------------------------------------------------- digits

  function DigitValue(c: char): nat
    requires IsDigit(c)
  {
    c as int - '0' as int
  }

  function DigitChar(d: nat): (c: char)
    requires d < 10
    ensures IsDigit(c) && DigitValue(c) == d
  {
    ('0' as int + d) as char
  }

  /** The value of a string of decimal digits (0 for the empty string). */
  function DecimalValue(s: string): nat
    requires AllDigits(s)
    decreases |s|
  {
    if s == [] then 0 else DecimalValue(s[..|s| - 1]) * 10 + DigitValue(s[|s| - 1])
  }

  lemma DecimalValueOne(s: string)
    requires |s| == 1 && AllDigits(s)
    ensures DecimalValue(s) == DigitValue(s[0])
  {
    assert s[..0] == [];
  }

  lemma DecimalValueTwo(s: string)
    requires |s| == 2 && AllDigits(s)
    ensures DecimalValue(s) == DigitValue(s[0]) * 10 + DigitValue(s[1])
  {
    DecimalValueOne(s[..1]);
  }

  /** Removing a character that does not occur changes nothing. */
  lemma {:induction false} RemoveAbsent(s: string, c: char)
    requires c !in s
    ensures Remove(s, c) == s
  {
    if s != [] {
      assert c !in s[1..];
      RemoveAbsent(s[1..], c);
      assert s == [s[0]] + s[1..];
    }
  }

  /** `replace` works piecewise on a concatenation. */
  lemma {:induction false} RemoveConcat(a: string, b: string, c: char)
    ensures Remove(a + b, c) == Remove(a, c) + Remove(b, c)
    decreases |a|
  {
    if a != [] {
      assert (a + b)[1..] == a[1..] + b;
      RemoveConcat(a[1..], b, c);
    } else {
      assert a + b == b;
    }
  }

  /** Shortest decimal spelling of `n`, as `str(n)` writes a non-negative int. */
  function DecimalString(n: nat): (r: string)
    ensures r != [] && AllDigits(r)
    decreases n
  {
    if n < 10 then [DigitChar(n)] else DecimalString(n / 10) + [DigitChar(n % 10)]
  }

  lemma {:induction false} DecimalRoundTrip(n: nat)
    ensures DecimalValue(DecimalString(n)) == n
    decreases n
  {
    if n >= 10 {
      DecimalRoundTrip(n / 10);
      var s := DecimalString(n);
      assert s[..|s| - 1] == DecimalString(n / 10);
    }
  }

  /** Two-digit zero-padded spelling, as `%02d` writes a value below 100. */
  function Pad2(n: nat): (r: string)
    requires n < 100
    ensures |r| == 2 && AllDigits(r) && DecimalValue(r) == n
  {
    var r := [DigitChar(n / 10), DigitChar(n % 10)];
    assert r[..1] == [DigitChar(n / 10)];
    assert r[..1][..0] == [];
    assert DecimalValue(r[..1]) == n / 10;
    r
  }

  /** `str(n)` for a Python int. */
  function IntString(n: int): string {
    if n < 0 then "-" + DecimalString(-n) else DecimalString(n)
  }

  /** Two two-digit numerals with the same value are the same text. */
  lemma TwoDigitsEqual(a: string, b: string)
    requires |a| == 2 && |b| == 2 && AllDigits(a) && AllDigits(b)
    requires DecimalValue(a) == DecimalValue(b)
    ensures a == b
  {
    DecimalValueTwo(a);
    DecimalValueTwo(b);
    assert DigitValue(a[0]) == DigitValue(b[0]);
  }

  /** `int(s)` for a Python str: surrounding whitespace, an optional sign, then one or
      more decimal digits. */
  function ParseInt(s: string): Option<int> {
    ParseNumeral(Strip(s))
  }

  /** `int()` of a text without surrounding whitespace. */
  function ParseNumeral(t: string): Option<int> {
    if t != [] && (t[0] == '+' || t[0] == '-') then
      if |t| > 1 && AllDigits(t[1..]) then
        var v: int := DecimalValue(t[1..]);
        Some(if t[0] == '-' then -v else v)
      else None
    else if t != [] && AllDigits(t) then Some(DecimalValue(t))
    else None
  }

  /** `int(str(n)) == n`: the stringification the save path applies is undone by the
      coercion the load path applies. */
  lemma ParseIntString(n: int)
    ensures ParseInt(IntString(n)) == Some(n)
  {
    if n < 0 {
      ParseIntNegative(n);
    } else {
      DecimalRoundTrip(n);
      ParseIntDigits(DecimalString(n));
    }
  }

  lemma ParseIntNegative(n: int)
    requires n < 0
    ensures ParseInt(IntString(n)) == Some(n)
  {
    var ds := DecimalString(-n);
    assert DecimalValue(ds) == -n by { DecimalRoundTrip(-n); }
    ParseIntMinus(IntString(n), ds);
  }

  /** `int()` of a minus sign followed by digits is the negated decimal value. */
  lemma ParseIntMinus(s: string, ds: string)
    requires ds != [] && AllDigits(ds) && s == "-" + ds
    ensures var v: int := DecimalValue(ds); ParseInt(s) == Some(-v)
  {
    MinusDigits(s, ds);
    StripNoSpace(s);
  }

  /** A minus sign followed by digits has no whitespace, and its tail is the digits. */
  lemma MinusDigits(s: string, ds: string)
    requires ds != [] && AllDigits(ds) && s == "-" + ds
    ensures NoSpace(s) && |s| > 1 && s[0] == '-' && s[1..] == ds
  {
    assert forall i :: 1 <= i < |s| ==> s[i] == ds[i - 1];
  }

  /** `int()` of a plain run of digits is its decimal value. */
  lemma ParseIntDigits(ds: string)
    requires ds != [] && AllDigits(ds)
    ensures ParseInt(ds) == Some(DecimalValue(ds))
  {
    assert NoSpace(ds);
    StripNoSpace(ds);
  }
}

=== FILE: validation.dfy ===
/** The validation layer: financial amounts, the strict and the lenient month formats,
    and the normalisation of stored records and of the whole dataset
    (budget_app/validation_utils.py). */
module Validation {
  import opened Results
  import opened Text
  import opened Values
  import opened Data

  // ------------------------------------------------------------------ amounts

  /** An unsigned decimal numeral with an optional fractional part (`12`, `12.9`,
      `12.`, `.5`), truncated toward zero: the integer part's value. */
  function UnsignedTruncated(body: string): Option<nat> {
    match IndexOf(body, '.')
    case None =>
      if body != [] && AllDigits(body) then Some(DecimalValue(body)) else None
    case Some(p) =>
      if |body| > 1 && AllDigits(body[..p]) && AllDigits(body[p + 1..])
      then Some(DecimalValue(body[..p]))
      else None
  }

  /** `int(float(s))` on a plain decimal: surrounding whitespace, an optional sign,
      a numeral, truncated toward zero, so "-0.5" gives 0 and "-1.5" gives -1. */
  function TruncatedNumber(s: string): Option<int> {
    var t := Strip(s);
    if t != [] && (t[0] == '+' || t[0] == '-') then
      match UnsignedTruncated(t[1..])
      case None => None
      case Some(v) =>
        var n: int := v;
        Some(if t[0] == '-' then -n else n)
    else
      match UnsignedTruncated(t)
      case None => None
      case Some(v) => Some(v)
  }

  /** Thousands separators and spaces are dropped before the number is read. */
  function CleanAmount(s: string): string {
    Remove(Remove(s, ','), ' ')
  }

  /** `ensure_valid_financial_input` on a string. */
  function AmountFromText(s: string): Result<nat> {
    match TruncatedNumber(CleanAmount(s))
    case Some(v) => if v >= 0 then Ok(v) else Err(InvalidAmount)
    case None => Err(InvalidAmount)
  }

  /** `ensure_valid_financial_input` on any value: an integer passes unchanged exactly
      when it is not negative; text goes through `AmountFromText`; `True` and `False`
      read as 1 and 0. */
  function EnsureValidFinancialInput(v: Value): (r: Result<nat>)
    ensures v.VInt? ==> (r.Ok? <==> v.i >= 0)
    ensures v.VInt? && r.Ok? ==> r.value == v.i
    ensures v.VStr? ==> r == AmountFromText(v.s)
    ensures v.VBool? ==> r == Ok(if v.b then 1 else 0)
    ensures v.VNull? ==> r == Err(InvalidAmount)
  {
    match v
    case VStr(s) => AmountFromText(s)
    case VInt(n) => if n >= 0 then Ok(n) else Err(InvalidAmount)
    case VBool(b) => Ok(if b then 1 else 0)
    case VNull => Err(InvalidAmount)
  }

  /** A string of digits is accepted as the number it spells. */
  lemma AmountOfDigits(ds: string)
    requires ds != [] && AllDigits(ds)
    ensures AmountFromText(ds) == Ok(DecimalValue(ds))
  {
    RemoveAbsent(ds, ',');
    RemoveAbsent(ds, ' ');
    DigitsNumber(ds);
  }

  lemma DigitsNumber(ds: string)
    requires ds != [] && AllDigits(ds)
    ensures TruncatedNumber(ds) == Some(DecimalValue(ds))
  {
    StripNoSpace(ds);
    assert '.' !in ds;
    assert IndexOf(ds, '.') == None;
    assert ds[0] != '+' && ds[0] != '-';
  }

  /** Every non-negative integer, written out in decimal, is read back unchanged. */
  lemma AmountRoundTrip(n: nat)
    ensures AmountFromText(DecimalString(n)) == Ok(n)
  {
    AmountOfDigits(DecimalString(n));
    DecimalRoundTrip(n);
  }

  /** A comma or a space anywhere in the input is ignored: "1,000 " reads as 1000. */
  lemma AmountIgnoresSeparator(a: string, b: string, x: char)
    requires x == ',' || x == ' '
    ensures AmountFromText(a + [x] + b) == AmountFromText(a + b)
  {
    RemoveAround(a, b, x, ',');
    RemoveConcat(a, b, ',');
    var a1, b1 := Remove(a, ','), Remove(b, ',');
    if x == ' ' {
      RemoveAround(a1, b1, x, ' ');
      RemoveConcat(a1, b1, ' ');
    }
  }

  lemma RemoveAround(a: string, b: string, x: char, c: char)
    ensures Remove(a + [x] + b, c)
         == if x == c then Remove(a, c) + Remove(b, c) else Remove(a, c) + [x] + Remove(b, c)
  {
    RemoveConcat(a + [x], b, c);
    RemoveConcat(a, [x], c);
    RemoveOne(x, c);
    if x == c {
      assert Remove(a, c) + [] == Remove(a, c);
    }
  }

  lemma RemoveOne(x: char, c: char)
    ensures Remove([x], c) == if x == c then [] else [x]
  {
    assert [x][1..] == [];
  }

  /** Characters that can make up a plain signed decimal numeral. */
  predicate NumeralChars(s: string) {
    forall i :: 0 <= i < |s| ==> IsDigit(s[i]) || s[i] == '.' || s[i] == '-'
  }

  /** A numeral carries nothing that cleaning or stripping would remove. */
  lemma CleanNumeral(s: string)
    requires NumeralChars(s)
    ensures CleanAmount(s) == s && Strip(s) == s
  {
    RemoveAbsent(s, ',');
    RemoveAbsent(s, ' ');
    StripNoSpace(s);
  }

  lemma DotPosition(ds: string, fs: string)
    requires AllDigits(ds) && AllDigits(fs)
    ensures IndexOf(ds + "." + fs, '.') == Some(|ds|)
  {
    var s := ds + "." + fs;
    assert s[|ds|] == '.';
    assert forall i :: 0 <= i < |ds| ==> s[i] == ds[i];
  }

  lemma DecimalNumeral(ds: string, fs: string)
    requires ds != [] && AllDigits(ds) && AllDigits(fs)
    ensures var s := ds + "." + fs;
      NumeralChars(s) && UnsignedTruncated(s) == Some(DecimalValue(ds))
  {
    var s := ds + "." + fs;
    forall i | 0 <= i < |s|
      ensures IsDigit(s[i]) || s[i] == '.' || s[i] == '-'
    {
      if i < |ds| {
        assert s[i] == ds[i];
      } else if i > |ds| {
        assert s[i] == fs[i - |ds| - 1];
      }
    }
    DotPosition(ds, fs);
    assert s[..|ds|] == ds && s[|ds| + 1..] == fs;
  }

  /** A fractional part is cut off, never rounded: "12.9" reads as 12. */
  lemma AmountTruncates(ds: string, fs: string)
    requires ds != [] && AllDigits(ds) && AllDigits(fs)
    ensures AmountFromText(ds + "." + fs) == Ok(DecimalValue(ds))
  {
    DecimalNumeral(ds, fs);
    assert (ds + "." + fs)[0] == ds[0];
    UnsignedAmount(ds + "." + fs, DecimalValue(ds));
  }

  /** An unsigned numeral is accepted as the value it truncates to. */
  lemma UnsignedAmount(s: string, v: nat)
    requires NumeralChars(s) && s != [] && s[0] != '-' && UnsignedTruncated(s) == Some(v)
    ensures AmountFromText(s) == Ok(v)
  {
    CleanNumeral(s);
  }

  /** A numeral with a minus sign in front reads as the negated truncation, refused
      unless that is zero. */
  lemma NegativeAmount(u: string, v: nat)
    requires NumeralChars(u) && UnsignedTruncated(u) == Some(v)
    ensures AmountFromText("-" + u) == (if v == 0 then Ok(0) else Err(InvalidAmount))
  {
    SignedNumeral(u);
    CleanNumeral("-" + u);
  }

  lemma SignedNumeral(u: string)
    requires NumeralChars(u)
    ensures NumeralChars("-" + u) && ("-" + u)[1..] == u
  {
    var s := "-" + u;
    assert forall i :: 1 <= i < |s| ==> s[i] == u[i - 1];
  }

  /** A negative number is refused unless truncation brings it to zero: "-0.5" is
      accepted as 0, "-1.5" is refused. */
  lemma AmountNegative(ds: string, fs: string)
    requires ds != [] && AllDigits(ds) && AllDigits(fs)
    ensures AmountFromText("-" + (ds + "." + fs))
         == (if DecimalValue(ds) == 0 then Ok(0) else Err(InvalidAmount))
  {
    DecimalNumeral(ds, fs);
    NegativeAmount(ds + "." + fs, DecimalValue(ds));
  }

  /** A negative integer is refused unless it is zero: "-5" is refused, "-0" gives 0. */
  lemma AmountNegativeInteger(ds: string)
    requires ds != [] && AllDigits(ds)
    ensures AmountFromText("-" + ds) == (if DecimalValue(ds) == 0 then Ok(0) else Err(InvalidAmount))
  {
    assert '.' !in ds;
    assert UnsignedTruncated(ds) == Some(DecimalValue(ds));
    NegativeAmount(ds, DecimalValue(ds));
  }

  // ------------------------------------------------------------------- months

  predicate IsSeparator(c: char) {
    c == '/' || c == '.'
  }

  /** The two-character month `0[1-9]|1[0-2]`. */
  predicate TwoDigitMonth(a: char, b: char) {
    (a == '0' && '1' <= b <= '9') || (a == '1' && '0' <= b <= '2')
  }

  /** `ensure_valid_month_format`: exactly `^(0[1-9]|1[0-2])/\d{2}$`. */
  predicate StrictMonth(s: string) {
    |s| == 5 && TwoDigitMonth(s[0], s[1]) && s[2] == '/' && IsDigit(s[3]) && IsDigit(s[4])
  }

  /** `is_valid_month_format_lenient`: `^([1-9]|0[1-9]|1[0-2])[/.]\d{2}$`. */
  predicate LenientMonth(s: string) {
    || (|s| == 4 && '1' <= s[0] <= '9' && IsSeparator(s[1]) && IsDigit(s[2]) && IsDigit(s[3]))
    || (|s| == 5 && TwoDigitMonth(s[0], s[1]) && IsSeparator(s[2]) && IsDigit(s[3]) && IsDigit(s[4]))
  }

  /** Two two-digit halves around a slash: `s.split("/")` is exactly those halves. */
  lemma SlashHalves(s: string)
    requires |s| == 5 && AllDigits(s[..2]) && s[2] == '/' && AllDigits(s[3..])
    ensures Count(s, '/') == 1 && Before(s, '/') == s[..2] && After(s, '/') == s[3..]
  {
    assert '/' !in s[..2] by {
      assert forall i :: 0 <= i < 2 ==> s[..2][i] == s[i];
    }
    assert '/' !in s[3..] by {
      assert forall i :: 0 <= i < 2 ==> s[3..][i] == s[3 + i];
    }
    SeparatorAt(s, '/', 2);
  }

  /** The strict format read numerically: two digits worth 1 to 12, a slash, two
      digits. */
  lemma StrictMonthMeaning(s: string)
    ensures StrictMonth(s) <==>
      (|s| == 5 && AllDigits(s[..2]) && s[2] == '/' && AllDigits(s[3..])
       && 1 <= DecimalValue(s[..2]) <= 12)
  {
    if |s| == 5 && AllDigits(s[..2]) {
      DecimalValueTwo(s[..2]);
    }
  }

  /** The lenient format read numerically: one or two digits worth 1 to 12, a slash or
      a dot, two digits. */
  lemma LenientMonthMeaning(s: string)
    ensures LenientMonth(s) <==>
      ((|s| == 4 || |s| == 5) && AllDigits(s[..|s| - 3]) && IsSeparator(s[|s| - 3])
       && AllDigits(s[|s| - 2..]) && 1 <= DecimalValue(s[..|s| - 3]) <= 12)
  {
    if |s| == 5 && AllDigits(s[..2]) {
      DecimalValueTwo(s[..2]);
    }
    if |s| == 4 && AllDigits(s[..1]) {
      DecimalValueOne(s[..1]);
    }
  }

  /** Every canonical month is also accepted by the lenient check. */
  lemma StrictIsLenient(s: string)
    requires StrictMonth(s)
    ensures LenientMonth(s)
  {
  }

  // ------------------------------------------------------- record normalising

  /** `int(raw[key])` when the key is present, 0 when it is absent; `None` when
      `int()` raises. */
  function FieldOrZero(raw: RawRecord, key: string): Option<int> {
    if key in raw then IntOf(raw[key]) else Some(0)
  }

  /** `validate_and_normalize_record`: the month key must be present; salary and
      expenses are coerced with `int()`, an absent one becomes 0; other keys are kept. */
  function NormalizeRecord(raw: RawRecord): (r: Result<Record>)
    ensures "month" !in raw ==> r == Err(MissingMonth)
    ensures r.Ok? <==>
      "month" in raw && raw["month"].VStr?
      && FieldOrZero(raw, "salary").Some? && FieldOrZero(raw, "expenses").Some?
    ensures r.Ok? ==>
      && WellFormed(r.value)
      && r.value.month == raw["month"].s
      && r.value.salary == VInt(FieldOrZero(raw, "salary").value)
      && r.value.expenses == VInt(FieldOrZero(raw, "expenses").value)
      && r.value.extra == raw - RecordKeys
  {
    if "month" !in raw then Err(MissingMonth)
    else
      match FieldOrZero(raw, "salary")
      case None => Err(InvalidSalary)
      case Some(salary) =>
        match FieldOrZero(raw, "expenses")
        case None => Err(InvalidExpenses)
        case Some(expenses) =>
          match raw["month"]
          case VStr(m) => Ok(Record(m, VInt(salary), VInt(expenses), raw - RecordKeys))
          case _ => Err(NonTextMonth)
  }

  /** The record loop of `validate_and_normalize_data`: records that fail are skipped
      with a warning, the rest are kept in their original order. */
  function NormalizeRecords(rs: seq<RawRecord>): (out: seq<Record>)
    ensures |out| <= |rs|
    ensures |out| == |rs| <==> forall i :: 0 <= i < |rs| ==> NormalizeRecord(rs[i]).Ok?
    ensures forall i :: 0 <= i < |out| ==> WellFormed(out[i]) && out[i].salary.VInt? && out[i].expenses.VInt?
  {
    if rs == [] then []
    else
      var tail := NormalizeRecords(rs[1..]);
      assert forall i :: 1 <= i < |rs| ==> rs[i] == rs[1..][i - 1];
      match NormalizeRecord(rs[0])
      case Ok(r) => [r] + tail
      case Err(_) => tail
  }

  /** Normalising is a filter: it works piecewise on a concatenation, so the survivors
      of the first part come first. */
  lemma {:induction false} NormalizeRecordsConcat(a: seq<RawRecord>, b: seq<RawRecord>)
    ensures NormalizeRecords(a + b) == NormalizeRecords(a) + NormalizeRecords(b)
    decreases |a|
  {
    if a == [] {
      assert a + b == b;
    } else {
      assert (a + b)[0] == a[0];
      assert (a + b)[1..] == a[1..] + b;
      NormalizeRecordsConcat(a[1..], b);
    }
  }

  /** A record survives exactly when some raw record normalises to it. */
  lemma {:induction false} NormalizeRecordsMembers(rs: seq<RawRecord>, r: Record)
    ensures r in NormalizeRecords(rs) <==> exists i :: 0 <= i < |rs| && NormalizeRecord(rs[i]) == Ok(r)
    decreases |rs|
  {
    if rs != [] {
      NormalizeRecordsMembers(rs[1..], r);
      if exists i :: 0 <= i < |rs| && NormalizeRecord(rs[i]) == Ok(r) {
        var i :| 0 <= i < |rs| && NormalizeRecord(rs[i]) == Ok(r);
        if i > 0 {
          assert rs[1..][i - 1] == rs[i];
        }
      }
      if exists i :: 0 <= i < |rs[1..]| && NormalizeRecord(rs[1..][i]) == Ok(r) {
        var i :| 0 <= i < |rs[1..]| && NormalizeRecord(rs[1..][i]) == Ok(r);
        assert rs[i + 1] == rs[1..][i];
      }
    }
  }

  /** When every raw record is valid nothing is skipped: the i-th record is the
      normalised i-th raw record. */
  lemma {:induction false} NormalizeRecordsAllValid(rs: seq<RawRecord>)
    requires forall i :: 0 <= i < |rs| ==> NormalizeRecord(rs[i]).Ok?
    ensures |NormalizeRecords(rs)| == |rs|
    ensures forall i :: 0 <= i < |rs| ==> NormalizeRecords(rs)[i] == NormalizeRecord(rs[i]).value
    decreases |rs|
  {
    if rs != [] {
      assert forall i :: 0 <= i < |rs[1..]| ==> rs[1..][i] == rs[i + 1];
      NormalizeRecordsAllValid(rs[1..]);
      assert forall i :: 1 <= i < |rs| ==> NormalizeRecords(rs)[i] == NormalizeRecords(rs[1..])[i - 1];
    }
  }

  /** `validate_and_normalize_data`: a missing record list becomes empty, the bank
      balance is coerced with `int()` (0 when absent, failure when it cannot be), and
      every record is normalised on its own. */
  function NormalizeData(raw: RawData): (r: Result<Dataset>)
    ensures r.Err? <==> "bank_balance" in raw.fields && IntOf(raw.fields["bank_balance"]).None?
    ensures r.Err? ==> r.error == InvalidBankBalance
    ensures r.Ok? ==>
      && r.value.bank == (if "bank_balance" in raw.fields then IntOf(raw.fields["bank_balance"]).value else 0)
      && r.value.records == NormalizeRecords(if raw.records.Some? then raw.records.value else [])
  {
    var records := match raw.records case Some(rs) => rs case None => [];
    if "bank_balance" in raw.fields then
      match IntOf(raw.fields["bank_balance"])
      case None => Err(InvalidBankBalance)
      case Some(b) => Ok(Dataset(NormalizeRecords(records), b))
    else Ok(Dataset(NormalizeRecords(records), 0))
  }
}

=== FILE: values.dfy ===
/** JSON scalars as the budget file holds them, and the Python coercions `int(v)` and
    `str(v)` the tracker applies to them. */
module Values {
  import opened Results
  import opened Text

  /** A value read from the budget file. `VNull` stands for `null` and also for arrays
      and objects: `int()` rejects all three with TypeError. */
  datatype Value = VInt(i: int) | VStr(s: string) | VBool(b: bool) | VNull

  /** Python `int(v)`; `None` where it raises ValueError or TypeError. */
  function IntOf(v: Value): Option<int> {
    match v
    case VInt(n) => Some(n)
    case VStr(s) => ParseInt(s)
    case VBool(b) => Some(if b then 1 else 0)
    case VNull => None
  }

  /** `int(v)` with a failed coercion read as 0, the defensive decoding the
      calculations use. */
  function IntOrZero(v: Value): int {
    match IntOf(v)
    case Some(n) => n
    case None => 0
  }

  /** Python `str(v)`. */
  function StrOf(v: Value): string {
    match v
    case VInt(n) => IntString(n)
    case VStr(s) => s
    case VBool(b) => if b then "True" else "False"
    case VNull => "None"
  }

  /** Writing an integer field as a string and coercing it back yields the integer. */
  lemma IntStrRoundTrip(n: int)
    ensures IntOf(VStr(StrOf(VInt(n)))) == Some(n)
  {
    ParseIntString(n);
  }
}
